=== FILE: README.md ===
# Graceful shutdown helper for Go services, modelled in Dafny

This project models the core of a small Go package that shuts a service down
in an orderly way. The package has three parts:

- **The phased coordinator** (`gracefulShutdownApp.Shutdown`). It revokes
  readiness and waits a pre-shutdown delay. Then it shuts the modules down
  concurrently under a module timeout, and then the server under a server
  timeout. The timeouts come from a `Timeouts` record whose zero fields
  select built-in defaults (3s and 15s).
- **The in-flight counter** (`State`). Request-handling code raises it when
  a unit of work starts and lowers it when the unit ends. Its `Shutdown` is
  meant to wait until the count drains or the context expires. As written,
  it never returns once work is outstanding (see Findings).
- **Two named-module variants.** One is the `GracefulShutdownApp.Shutdown`
  method (app.go). The other is the `ShutdownApp` closure (main.go). Both
  fan out to a map of named modules, wait for all of them without a deadline
  of their own, and only then shut the server down.

Everything is modelled as immutable datatypes and pure functions. A call of
a shutdown operation yields a trace of the calls and log entries it makes,
plus how it ends. The properties are stated about projections of that trace:
- the milestones (every step except error logs: readiness, messages, the
  sleep and the task calls, in order);
- the informational messages;
- the logged or reported errors;
- the names of the modules that were called.

The Dafny modules follow the program's files:

| file | module | models |
|---|---|---|
| go_types.dfy | `GoTypes` | `time.Duration` (signed 64-bit nanoseconds), nil-able values, `error` values with `%w` wrapping and `errors.Is`, contexts |
| timeouts.dfy | `Timeouts` | timeouts.go |
| state.dfy | `InFlight` | state.go |
| shutdown.dfy | `PhasedShutdown` | shutdown.go |
| named_modules.dfy | `NamedModules` | what app.go and main.go share: configuration, fan-out, server step |
| app.dfy | `GracefulApp` | app.go |
| shutdown_app.dfy | `ShutdownAppClosure` | main.go, plus the link between the two variants |

How time, concurrency and the environment are represented:

- **Tasks in the main variant.** Each module and the server is given by its
  outcome relative to its phase deadline: `Finished` (with an optional error
  of its own) or `Overran`. Such a task's call is a step in the trace. Its
  error is logged exactly when it finished with one.
- **The `select` in `wait`.** Each phase also says which case its `select`
  takes once every task has finished: `DoneFirst` or `DeadlineFirst`. The
  deadline can win even then. It may have passed already, because a
  negative timeout passes through the getters. It may also pass just as
  `done` arrives, and Go picks at random between ready cases. This applies
  to a phase with no tasks too. While a task is still running, only the
  deadline can fire.
- **Modules and server in the named variants.** Each is given by what its
  call does: `Returns` with an optional error, or `Blocks` for ever. Since
  those variants wait without a deadline, a blocking module or server makes
  the whole call end in `Blocked`.
- **Scheduling.** Map iteration order and goroutine scheduling are a
  parameter, `order`. It is required to be a permutation of the map's keys.
  The trace lists each goroutine's steps in that order. That is one of the
  interleavings the program allows. Error reports are compared as sets and
  counts, not as sequences.
- **The polling loop of `State.Shutdown`.** What each iteration observes is
  a sequence of `Poll` values: whether the context is done, and the count
  it reads.
- **Nil handlers.** Calling a method on a nil interface, or calling a nil
  func, is modelled as the exit `Panicked`.

## Model

| member | source | states |
|---|---|---|
| Timeouts.GetBeforeTimeout | timeouts.go:16-22 | the configured `Before` when it is non-zero, otherwise exactly 3s; never zero, and a negative value passes through |
| Timeouts.GetServerTimeout | timeouts.go:24-30 | the configured `Server` when it is non-zero, otherwise exactly 15s; never zero |
| Timeouts.GetModuleTimeout | timeouts.go:32-38 | the configured `Modules` when it is non-zero, otherwise exactly 15s; never zero |
| Timeouts.GettersAreIndependent | timeouts.go:16-38 | each getter depends only on its own field: records agreeing on a field agree on that getter |
| Timeouts.ResolvedIsIdempotent | timeouts.go:16-38 | defaulting twice changes nothing, each getter gives the same value on the resolved record, and no resolved field is zero |
| Timeouts.ResolvedKeepsNonZero | timeouts.go:16-38 | a record without zero fields is left exactly as configured |
| InFlight.NewState | state.go:14-18 | a new counter keeps the polling interval and has no outstanding work |
| InFlight.Increment | state.go:20-22 | the count goes up by one, wrapping to zero at 2^64 - 1 as a `uint64` does; the counter is unfinished afterwards exactly when no wrap happened |
| InFlight.Decrement | state.go:24-28 | the count goes down by one when positive and is unchanged at zero, so it never goes negative |
| InFlight.IncrementThenDecrement | state.go:20-28 | decrement undoes increment whenever the increment did not wrap |
| InFlight.IncrementWrapsAtMax | state.go:20-28 | at the top of the range the round trip fails: the counter ends at zero |
| InFlight.BalancedRunCount | state.go:20-28 | if no prefix of a run of increments and decrements takes more away than there is, the final count is the start plus the increments minus the decrements |
| InFlight.NewStateRunCount | state.go:14-32 | from a new counter, such a run ends with count #increments - #decrements, and is finished exactly when the two balance |
| InFlight.RunCountBounds | state.go:20-28 | for any run, the count stays between start + #Inc - #Dec and start + #Inc: decrements at zero are lost |
| InFlight.IsFinished | state.go:30-32 | a counter is finished exactly when no unit of work is outstanding |
| InFlight.PollOnceAsWritten | state.go:39-49 | one iteration as written: a ready `Done` records the context error wrapped as "shutdown context timeout done"; otherwise the recorded error is kept; the `for` loop is never left |
| InFlight.PollAsWritten | state.go:38-50 | the loop as written never returns, whatever the context and the counter do |
| InFlight.ShutdownAsWritten | state.go:34-54 | with no outstanding work, `Shutdown` returns `(0, nil)` at once; with work outstanding it never returns |
| InFlight.DrainedCounterKeepsPolling | state.go:38-53 | a counter of 1 that has drained by the first poll: the code as written keeps polling, while the intended loop returns `(0, nil)` |
| InFlight.PollIntended | state.go:38-53 | the corrected loop (a labelled `break` that leaves the `for`) returns exactly when some iteration sees the context done or the counter at zero; the result is fixed by the first such iteration: the count it read with that context error wrapped as "shutdown context timeout done", or `(0, nil)` for a drained counter |
| InFlight.Shutdown | state.go:34-54 | `State.Shutdown` with the corrected loop, not as written: `(0, nil)` at once when nothing is outstanding; otherwise it returns exactly when some iteration sees the context done or the counter drained, with the result of the first such iteration as for `InFlight.PollIntended` |
| PhasedShutdown.TurnOffOne | shutdown.go:58-64 | one goroutine: the task is called first, with the phase context, and its error is logged after the call exactly when it finished with one |
| PhasedShutdown.TurnOffModules | shutdown.go:52-69 | `done` is signalled exactly when every task of the phase finished |
| PhasedShutdown.TurnOffModulesViews | shutdown.go:52-69 | every task is called once, in order, with the phase context; exactly the tasks' own errors are logged, in order; no failure or overrun keeps another task from being called |
| PhasedShutdown.Wait | shutdown.go:71-79 | `wait` returns nil or `ErrTimedOut` and nothing else; nil exactly when every task finished and the `select` took `done`; `ErrTimedOut` whenever a task is still running |
| PhasedShutdown.ShutdownPhase | shutdown.go:71-89 | the phase result is `ErrTimedOut` exactly when some task overran or the deadline won the `select`, also with no tasks, and nil otherwise; a task's own error never becomes the result; the calls use a fresh context with the phase timeout |
| PhasedShutdown.ReadinessStep | shutdown.go:122-124 | the readiness checker is called once exactly when it is non-nil, and nothing else happens in this step; the step is neither a message nor an error log |
| PhasedShutdown.WaitBeforeShutdown | shutdown.go:91-96 | one message naming the defaulted delay, then, after it, a sleep of that delay |
| PhasedShutdown.AnnouncedPhase | shutdown.go:98-119 | a phase is announced with its timeout before any of its tasks is called, runs its tasks, and logs its timeout wrapped with the phase's message exactly when it timed out |
| PhasedShutdown.ShutdownModules | shutdown.go:98-106 | the module phase announces the defaulted module timeout before calling the modules, logs module errors, and logs "modules shutdown failed" wrapping `ErrTimedOut` exactly when the phase timed out |
| PhasedShutdown.ShutdownServer | shutdown.go:108-119 | the server phase announces the defaulted server timeout before calling the server; its result is `ErrTimedOut` exactly when the server overran or the deadline won the `select`, and that is also logged wrapped as "server shutdown failed" |
| PhasedShutdown.Shutdown | shutdown.go:121-130 | panics exactly when the logger is nil, and then nothing but the readiness step (when the checker is non-nil) happens before the panic; otherwise returns `ErrTimedOut` exactly when the server phase timed out, and nil otherwise; the readiness checker is the first step exactly when it is non-nil |
| PhasedShutdown.ReadinessOnlyFirst | shutdown.go:121-130 | the readiness checker is called at most once and never after any other step |
| PhasedShutdown.ModuleErrorsBeforeServerPhase | shutdown.go:101-113 | the server announcement is made, and wherever it stands, every module error and the wrapped module-phase timeout are logged before it; after it come only the server call and the server phase's own error and wrapped timeout |
| PhasedShutdown.PhaseShape | shutdown.go:98-119 | a phase opens with its announcement, then has only task calls and error logs, and ends with the wrapped timeout when it timed out |
| PhasedShutdown.PhaseOrder | shutdown.go:91-130 | every step but the error logs, in order: readiness (if any), the delay message, the sleep, the module announcement, every module in the module context, the server announcement, the server in the server context, even after a module timeout |
| PhasedShutdown.InfoMessages | shutdown.go:91-119 | exactly three messages are logged: the delay, the module timeout and the server timeout, each with the defaulted duration |
| PhasedShutdown.LoggedErrorsOfRun | shutdown.go:52-130 | the error log is, in order: the module errors, the wrapped module timeout, the server's error, the wrapped server timeout |
| PhasedShutdown.EveryTaskErrorLogged | shutdown.go:52-119 | an error is logged exactly when a module or the server finished with it, or it is one of the two wrapped timeouts and its phase timed out (a task overran or the deadline won the `select`) |
| PhasedShutdown.AllSucceedLogsNothing | shutdown_test.go:118-121 | when every module and the server succeed well before their deadlines, nothing is logged as an error and nil is returned |
| PhasedShutdown.ServerErrorIsLoggedNotReturned | shutdown_test.go:122-127 | a server error is logged as it is and is not returned |
| PhasedShutdown.ModuleTimeoutIsLoggedNotReturned | shutdown_test.go:128-133 | a module overrun logs exactly one error, which wraps `ErrTimedOut`; the server is still called and nil is returned |
| PhasedShutdown.BothPhasesTimeOut | shutdown_test.go:134-141 | when both phases overrun, exactly two errors are logged, both wrapping `ErrTimedOut`, and `ErrTimedOut` is returned |
| PhasedShutdown.EmptyModulePhaseCanTimeOut | shutdown.go:81-106 | with no modules and a deadline that wins the `select`, such as one from a negative module timeout, "modules shutdown failed" wrapping `ErrTimedOut` is still logged |
| NamedModules.ModuleGoroutine | app.go:55-63 | one goroutine: the module is called first, once, with the context; its error is reported after the call, tagged with its name, exactly when it returned one and the error handler is non-nil |
| NamedModules.FanOut | app.go:49-66 | every scheduled module is called once, in schedule order, with the shared context; only module calls and reports appear |
| NamedModules.FanOutReports | app.go:54-64 | an error is reported exactly when the error handler is non-nil and some scheduled module failed with it, tagged "module:<name>, failed graceful shutdown" |
| NamedModules.FanOutReportCount | app.go:54-64 | with distinct names there are as many reports as failing modules when the handler is non-nil, and none otherwise |
| NamedModules.Prelude | app.go:29-37 | readiness called exactly when it is non-nil, once and first; the announcement once exactly when the information handler is non-nil; the sleep once and last; the length is the number of these steps, and nothing else appears |
| NamedModules.ServerStep | app.go:68-72 | a nil server is skipped; a server error goes to the error handler without a nil check, so a nil handler panics; a blocking server blocks |
| NamedModules.ModulesAndServer | app.go:49-73 | with no modules nothing is called; otherwise the call blocks exactly when a module or the server blocks, panics exactly when the server fails with a nil handler, and the server is called exactly when no module blocks and the server is non-nil |
| NamedModules.ShutdownWith | app.go:28-76 | readiness is called exactly when it is non-nil, and then first; a returning call carries no error; the blocking and panicking conditions are the same as for the module and server stage |
| NamedModules.ReadinessOnce | app.go:29-37 | readiness is called only when it is non-nil, and then exactly once, as the first step; the announcement is made once exactly when the information handler is non-nil; the sleep happens exactly once |
| NamedModules.AnnouncementOnlyWithHandler | app.go:33-37 | the announcement is made exactly when the information handler is non-nil and is the only message; the sleep always happens |
| NamedModules.PreludeBeforeCalls | app.go:29-72 | readiness, the announcement and the sleep all come before every module call and the server call |
| NamedModules.ModulesCalledOnce | app.go:49-64 | the modules called are exactly the map's keys, each once |
| NamedModules.CallsCarryContext | app.go:54-72 | every module call and the server call get the same context |
| NamedModules.NoModulesNothingShutDown | app.go:49-75 | with an empty map neither a module nor the server is called, and the call returns |
| NamedModules.ModuleReportsBeforeServer | app.go:55-72 | at the server call, every report before it is exactly some module's tagged failure (each failing module's, when the handler is non-nil), and only the server's own report follows it |
| NamedModules.ServerAfterModules | app.go:66-72 | no module call comes after the server call, and the server is called exactly when there is a module, none blocks and the server is non-nil |
| NamedModules.ReportsOfRun | app.go:54-72 | an error is reported exactly when it is a module's tagged failure and the handler is non-nil, or the server's tagged failure after every module returned |
| NamedModules.ReportCountOfRun | app.go:54-72 | the number of reports is the number of failing modules when the handler is non-nil, plus one for a reported server failure |
| GracefulApp.DeadlineContext | app.go:39-47 | a timeout context with `ShutdownTimeout` exactly when it is positive; otherwise the background context |
| GracefulApp.Shutdown | app.go:28-76 | always returns nil when it returns; it returns exactly when the map is empty, or nothing blocks and no server failure meets a nil handler; it blocks exactly when a module or the server blocks; it panics exactly when the server fails with a nil handler |
| GracefulApp.ReadinessAndAnnouncement | app.go:29-54 | readiness is called exactly when it is non-nil, once and first; the announcement is made once exactly when its handler is non-nil; the sleep happens exactly once, and no module or server is called before it |
| GracefulApp.CallsUseDeadline | app.go:39-72 | every module call and the server call carry a deadline of `ShutdownTimeout` if it is positive, and no deadline otherwise |
| GracefulApp.EmptyMapShutsNothingDown | app.go:49-75 | with no modules, neither modules nor server are shut down, and nil is returned |
| GracefulApp.EachModuleOnce | app.go:49-64 | each named module is called exactly once, whatever the others do |
| GracefulApp.ErrorsReported | app.go:54-72 | reports happen exactly for tagged module failures when the handler is non-nil and for the server's failure; one report per failing module |
| GracefulApp.ReportsBeforeServerCall | app.go:55-72 | every module's report comes before the server call, and only the server's own report follows it |
| GracefulApp.ServerAfterAllModules | app.go:66-72 | the server is called after every module, and exactly when the map is non-empty, no module blocks and the server is non-nil |
| ShutdownAppClosure.ShutdownApp | main.go:62-100 | the closure never yields an error; it blocks exactly when a module or the server blocks, and panics exactly when the server fails with a nil handler |
| ShutdownAppClosure.ReadinessAndAnnouncement | main.go:64-79 | readiness is called exactly when it is non-nil, once and first; the announcement is made once exactly when its handler is non-nil; the sleep happens exactly once, and no module or server is called before it |
| ShutdownAppClosure.EmptyMapShutsNothingDown | main.go:74-98 | with no modules the closure shuts down neither modules nor server |
| ShutdownAppClosure.CallerContextReachesEveryCall | main.go:79-97 | every module is called once, and every module call and the server call receive the caller's context unchanged |
| ShutdownAppClosure.ErrorsReported | main.go:79-97 | reports happen exactly for tagged module failures when the handler is non-nil and for the server's failure; one report per failing module |
| ShutdownAppClosure.ReportsBeforeServerCall | main.go:80-97 | every module's report comes before the server call, and only the server's own report follows it |
| ShutdownAppClosure.ServerAfterAllModules | main.go:91-97 | the server is called after every module, and exactly when there is a module, none blocks and the server is non-nil |
| ShutdownAppClosure.ShutdownTimeoutNeverRead | main.go:62-100 | changing `ShutdownTimeout` changes nothing about a call of the closure |
| ShutdownAppClosure.MethodIsClosureWithDeadline | app.go:39-47 | the app.go method behaves as the main.go closure called with the deadline context the method derives |

## Left out

- `ListenShutdownSignals` (shutdown.go:132-155 and main.go:19-42) is not modelled. It registers OS signal handlers, starts a goroutine and closes a channel: all of it is I/O and concurrency.
- graceful.go (`GracefulListener`) is not modelled. It is a wrapper over a foreign `net.Listener` that blocks on a `sync.WaitGroup`, and its point is concurrency. Its bookkeeping is also not a sound basis for a model: `recordClose` increments the `opened` counter instead of `closed`, and a connection's `Close` has no guard against a second close.
- `NewGracefulShutdownApp` (shutdown.go:41-50) only fills in the record; it is the `App` constructor.
- Real time is not modelled. Each sleep is a step carrying its duration. The race between a phase deadline and its tasks is given as data: each task's outcome, and which case the phase's `select` takes. The model does not tie these to the timeout's value. A non-positive timeout has already expired in Go, so there a task can only finish if it returns before the `select` runs, and the `select` may still take the deadline.
- In the main variant, a task that overran is abandoned, not stopped, and may still log an error after its phase is over. Those late log entries are not in the trace.
- `Duration.String` and the formatting of error text are not modelled. A message is its fixed prefix plus the duration as a value. A `%w`-wrapped error is its message plus its cause.
- Nil modules or a nil server in the main variant would make a goroutine panic. The model assumes every task is non-nil. The same holds for a nil module func in the named variants.
- `PhasedShutdown.Shutdown`: the trace shows one interleaving of each phase's goroutines, in slice order. In Go each task's `Shutdown(ctx)` call runs in its own goroutine (shutdown.go:58-59). So neither the order of the task calls within a phase nor the order of their error logs is fixed. "In order" in `PhasedShutdown.PhaseOrder` and `PhasedShutdown.TurnOffModulesViews` holds within a phase only for the interleaving the model picks. The order of the phases, their messages and the sleep holds for every interleaving.
- The counter in the model has no synchronisation. The Go `State` is not synchronised either, so concurrent `Increment`/`Decrement` calls race. The model gives each run of operations a sequential order.
- Behaviours of the code that the model keeps, although a reader might expect otherwise:
  - A nil `Logger` in the main variant panics at the first `Info` call (shutdown.go:94 has no nil check). This comes right after the readiness step.
  - The main variant's result is the server phase's timeout only (shutdown.go:113-118). The server's own error is logged and not returned, as shutdown_test.go:122-127 expects.
  - The named-module variants wait for their modules with `wg.Wait()` and no deadline (app.go:66, main.go:91). A module that never returns blocks the whole call.
  - `State.Shutdown` never returns once work is outstanding (state.go:38-50; see Findings).

## Findings

| source | as written | input that shows it | evidently intended | confidence | as-written member | corrected member |
|---|---|---|---|---|---|---|
| state.go:38-50 | in both `select` cases `break` leaves only the `select`, so the `for` loop has no exit: neither an expired context nor a drained counter ends it | a counter with one outstanding unit that has drained to 0 by the first poll; likewise any expired context | leave the loop (a labelled `break`): return `(count, wrapped ctx error)` on an expired context, and `(0, nil)` once the counter drains | high; not executed | InFlight.ShutdownAsWritten (shown by InFlight.DrainedCounterKeepsPolling and InFlight.PollAsWritten) | InFlight.Shutdown |

=== FILE: app.dfy ===
/** `GracefulShutdownApp.Shutdown`: the named-module variant as a method on
    the configuration. It derives the context itself — a deadline of
    `ShutdownTimeout` when that is positive, otherwise no deadline — and
    always returns nil. */
module GracefulApp {
  import opened GoTypes
  import opened NamedModules

  /** The context handed to every module and to the server: a timeout
      context only for a positive `ShutdownTimeout`; zero or negative leaves
      the background context, which never expires. */
  function DeadlineContext(c: Config): (ctx: Context)
    ensures ctx.WithTimeout? <==> c.shutdownTimeout > 0
    ensures ctx.WithTimeout? ==> ctx.parent == Background && ctx.timeout == c.shutdownTimeout
    ensures ctx.Background? <==> c.shutdownTimeout <= 0
  {
    if c.shutdownTimeout > 0 then WithTimeout(Background, c.shutdownTimeout) else Background
  }

  /** One call of `Shutdown` for a given map iteration order. It returns
      nil whenever it returns; it panics only on a server failure with a nil
      error handler, and blocks only when a module or the server does. */
  function Shutdown(c: Config, order: seq<string>): (r: Run)
    requires IsSchedule(order, c.modules)
    ensures r.exit.Returned? ==> r.exit.err == None
    ensures r.exit == Returned(None) <==>
              || |c.modules| == 0
              || (&& !AnyBlocks(c.modules) && c.server != Some(Blocks)
                  && (c.errorHandler || c.server.None? || c.server.value.err.None?))
    ensures r.exit == Blocked <==>
              |c.modules| > 0 && (AnyBlocks(c.modules) || c.server == Some(Blocks))
    ensures r.exit == Panicked <==>
              && |c.modules| > 0 && !AnyBlocks(c.modules) && !c.errorHandler
              && c.server.Some? && c.server.value.Returns? && c.server.value.err.Some?
  {
    ShutdownWith(c, order, DeadlineContext(c))
  }

  /** The readiness checker is called exactly when it is non-nil, once and
      first; the announcement is made once exactly when the information
      handler is non-nil; the sleep happens exactly once, and no module or
      server is called before it. */
  lemma ReadinessAndAnnouncement(c: Config, order: seq<string>)
    requires IsSchedule(order, c.modules)
    ensures var t := Shutdown(c, order).trace;
            (|t| > 0 && t[0] == ReadinessShutdown) <==> c.readinessChecker
    ensures Info(BeforeMessage, c.beforeShutdownTimeout) in Shutdown(c, order).trace
            <==> c.informationHandler
    ensures Sleep(c.beforeShutdownTimeout) in Shutdown(c, order).trace
    ensures ReadinessShutdown in Shutdown(c, order).trace <==> c.readinessChecker
    ensures var t := Shutdown(c, order).trace;
            forall i | 0 < i < |t| :: t[i] != ReadinessShutdown
    ensures var m := multiset(Shutdown(c, order).trace);
            && m[ReadinessShutdown] == (if c.readinessChecker then 1 else 0)
            && m[Info(BeforeMessage, c.beforeShutdownTimeout)] == (if c.informationHandler then 1 else 0)
            && m[Sleep(c.beforeShutdownTimeout)] == 1
    ensures var t := Shutdown(c, order).trace;
            forall i, j | 0 <= i < |t| && 0 <= j < |t| && t[i].Sleep? && (t[j].ModuleCall? || t[j].ServerCall?) ::
              i < j
  {
    AnnouncementOnlyWithHandler(c, order, DeadlineContext(c));
    PreludeBeforeCalls(c, order, DeadlineContext(c));
    ReadinessOnce(c, order, DeadlineContext(c));
  }

  /** Every module call and the server call carry the deadline context, so
      a deadline is attached exactly when `ShutdownTimeout` is positive. */
  lemma CallsUseDeadline(c: Config, order: seq<string>)
    requires IsSchedule(order, c.modules)
    ensures forall e | e in Shutdown(c, order).trace && (e.ModuleCall? || e.ServerCall?) ::
              e.ctx == (if c.shutdownTimeout > 0 then WithTimeout(Background, c.shutdownTimeout)
                        else Background)
  {
    CallsCarryContext(c, order, DeadlineContext(c));
  }

  /** With an empty module map neither a module nor the server is shut
      down, even when a server is configured, and nil is returned. */
  lemma EmptyMapShutsNothingDown(c: Config, order: seq<string>)
    requires IsSchedule(order, c.modules)
    requires |c.modules| == 0
    ensures forall e | e in Shutdown(c, order).trace :: !e.ModuleCall? && !e.ServerCall?
    ensures Shutdown(c, order).exit == Returned(None)
  {
    NoModulesNothingShutDown(c, order, DeadlineContext(c));
  }

  /** Each named module is called exactly once, whatever the others do. */
  lemma EachModuleOnce(c: Config, order: seq<string>)
    requires IsSchedule(order, c.modules)
    ensures multiset(CalledModules(Shutdown(c, order).trace)) == multiset(c.modules.Keys)
  {
    ModulesCalledOnce(c, order, DeadlineContext(c));
  }

  /** A module's failure reaches the error handler, tagged with the module's
      name, exactly when the handler is non-nil; the server's failure does
      once every module has returned. Nothing else is reported, and each
      failing module is reported once. */
  lemma ErrorsReported(c: Config, order: seq<string>, err: Error)
    requires IsSchedule(order, c.modules)
    ensures err in Reported(Shutdown(c, order).trace) <==>
              || (c.errorHandler && exists name | name in c.modules :: FailedWith(c.modules, name, err))
              || err in ServerReport(c)
    ensures |Reported(Shutdown(c, order).trace)|
            == (if c.errorHandler then |set name | name in c.modules && Failing(c.modules, name)| else 0)
               + |ServerReport(c)|
  {
    ReportsOfRun(c, order, DeadlineContext(c), err);
    ReportCountOfRun(c, order, DeadlineContext(c));
  }

  /** The server is called after every module call, and exactly when the
      map is non-empty, no module blocks and the server is non-nil. */
  lemma ServerAfterAllModules(c: Config, order: seq<string>)
    requires IsSchedule(order, c.modules)
    ensures ServerLast(Shutdown(c, order).trace)
    ensures ServerCall(DeadlineContext(c)) in Shutdown(c, order).trace
            <==> |c.modules| > 0 && !AnyBlocks(c.modules) && c.server.Some?
  {
    ServerAfterModules(c, order, DeadlineContext(c));
  }

  /** `wg.Wait()` precedes the server call, so every module's report comes
      before it and only the server's own report follows it. */
  lemma ReportsBeforeServerCall(c: Config, order: seq<string>)
    requires IsSchedule(order, c.modules)
    ensures var t := Shutdown(c, order).trace;
            forall k | 0 <= k < |t| && t[k] == ServerCall(DeadlineContext(c)) ::
              && Reported(t[k..]) == ServerReport(c)
              && forall err :: err in Reported(t[..k]) <==>
                   c.errorHandler && exists name | name in c.modules :: FailedWith(c.modules, name, err)
  {
    ModuleReportsBeforeServer(c, order, DeadlineContext(c));
  }
}

=== FILE: go_types.dfy ===
/** The few Go runtime notions the shutdown package relies on, as values:
    durations, optional values, error values with `%w` wrapping, and
    contexts. */
module GoTypes {

  const MinInt64: int := -0x8000_0000_0000_0000
  const MaxInt64: int := 0x7FFF_FFFF_FFFF_FFFF

  /** `time.Duration`: a signed 64-bit count of nanoseconds. */
  type Duration = d: int | MinInt64 <= d <= MaxInt64

  const Second: Duration := 1_000_000_000

  /** A possibly-nil value (a nil `error`, a nil interface, a nil func). */
  datatype Option<+T> = None | Some(value: T)

  /** Go `error` values as they occur in the package: the sentinel
      `ErrTimedOut`, an error produced by a module or server (identified by
      a name), and an error wrapped by `fmt.Errorf("<message>: %w", cause)`. */
  datatype Error =
    | TimedOut
    | Failure(name: string)
    | Wrapped(message: string, cause: Error)

  /** `errors.Is`: the target is the error itself or one of the causes on
      its `%w` chain. */
  predicate Is(err: Error, target: Error)
  {
    err == target || (err.Wrapped? && Is(err.cause, target))
  }

  /** `context.Context` values as far as the package builds them:
      `context.Background()` and `context.WithTimeout(parent, d)`. */
  datatype Context = Background | WithTimeout(parent: Context, timeout: Duration)

  /** A step that is missing from `u` and opens `v` without recurring in
      it marks exactly where `v` begins in `u + v`. */
  lemma MarkerSplit<T>(u: seq<T>, v: seq<T>, x: T, k: int)
    requires x !in u && |v| > 0 && v[0] == x
    requires forall i | 0 < i < |v| :: v[i] != x
    requires 0 <= k < |u + v| && (u + v)[k] == x
    ensures k == |u| && (u + v)[..k] == u && (u + v)[k..] == v
  {
    assert forall i | 0 <= i < |u| :: (u + v)[i] == u[i] && u[i] in u;
    assert forall i | |u| < i < |u + v| :: (u + v)[i] == v[i - |u|];
  }
}

=== FILE: named_modules.dfy ===
/** What the two named-module variants share: `GracefulShutdownApp` and
    the `Configs` of the `ShutdownApp` closure have the same fields, and
    after the pre-shutdown delay both fan out to every module of the map,
    wait for all of them without a deadline of their own, and then shut the
    server down.

    Map iteration order and goroutine scheduling are a parameter, `order`,
    a permutation of the module names; the trace lists each goroutine's
    steps in that order, one of the interleavings the program allows.
    A module or server is given by what its shutdown call does: return
    (with an optional error) or never return. */
module NamedModules {
  import opened GoTypes

  /** What a module function or the server's `Shutdown(ctx)` does when
      called: return, possibly with an error, or block for ever. */
  datatype Call = Returns(err: Option<Error>) | Blocks

  /** The configuration: whether the readiness checker, the error handler
      and the information handler are non-nil, the server (nil or its
      behaviour), the two durations, and the modules by name. */
  datatype Config = Config(
    readinessChecker: bool,
    server: Option<Call>,
    beforeShutdownTimeout: Duration,
    shutdownTimeout: Duration,
    errorHandler: bool,
    informationHandler: bool,
    modules: map<string, Call>)

  /** Observable steps: the readiness checker's `Shutdown()`, the
      information handler (message text and the duration appended to it),
      the sleep, a module call, the server call, and the error handler. */
  datatype Event =
    | ReadinessShutdown
    | Info(message: string, d: Duration)
    | Sleep(d: Duration)
    | ModuleCall(name: string, ctx: Context)
    | ServerCall(ctx: Context)
    | ErrorReported(err: Error)

  /** How the call ends: it returns, panics calling a nil error handler, or
      never returns because a module or the server never does. */
  datatype Exit = Returned(err: Option<Error>) | Panicked | Blocked

  datatype Run = Run(trace: seq<Event>, exit: Exit)

  const BeforeMessage := "waiting before start shutdown graceful: "
  const ServerFailedMessage := "server: failed graceful shutdown"

  function ModuleFailedMessage(name: string): string
  {
    "module:" + name + ", failed graceful shutdown"
  }

  /** `order` runs every module exactly once: it is a permutation of the
      map's keys. */
  predicate IsSchedule(order: seq<string>, modules: map<string, Call>)
  {
    multiset(order) == multiset(modules.Keys)
  }

  predicate Failing(modules: map<string, Call>, name: string)
  {
    name in modules && modules[name].Returns? && modules[name].err.Some?
  }

  /** `err` is the tagged report of the named module's failure. */
  predicate FailedWith(modules: map<string, Call>, name: string, err: Error)
  {
    Failing(modules, name) && err == Wrapped(ModuleFailedMessage(name), modules[name].err.value)
  }

  predicate AnyBlocks(modules: map<string, Call>)
  {
    exists name | name in modules :: modules[name].Blocks?
  }

  // ---------------------------------------------------------------------
  // Views of a trace

  /** The names of the modules called, in trace order. */
  function CalledModules(trace: seq<Event>): seq<string>
  {
    if trace == [] then []
    else (if trace[0].ModuleCall? then [trace[0].name] else []) + CalledModules(trace[1..])
  }

  /** The errors passed to the error handler, in trace order. */
  function Reported(trace: seq<Event>): seq<Error>
  {
    if trace == [] then []
    else (if trace[0].ErrorReported? then [trace[0].err] else []) + Reported(trace[1..])
  }

  lemma ViewsConcat(a: seq<Event>, b: seq<Event>)
    ensures CalledModules(a + b) == CalledModules(a) + CalledModules(b)
    ensures Reported(a + b) == Reported(a) + Reported(b)
  {
    CalledConcat(a, b);
    ReportedConcat(a, b);
  }

  lemma {:induction false} CalledConcat(a: seq<Event>, b: seq<Event>)
    ensures CalledModules(a + b) == CalledModules(a) + CalledModules(b)
  {
    if a == [] {
      assert a + b == b;
    } else {
      assert (a + b)[1..] == a[1..] + b;
      CalledConcat(a[1..], b);
      var head := if a[0].ModuleCall? then [a[0].name] else [];
      assert CalledModules(a) == head + CalledModules(a[1..]);
      assert CalledModules(a + b) == head + (CalledModules(a[1..]) + CalledModules(b));
    }
  }

  lemma {:induction false} ReportedConcat(a: seq<Event>, b: seq<Event>)
    ensures Reported(a + b) == Reported(a) + Reported(b)
  {
    if a == [] {
      assert a + b == b;
    } else {
      assert (a + b)[1..] == a[1..] + b;
      ReportedConcat(a[1..], b);
      var head := if a[0].ErrorReported? then [a[0].err] else [];
      assert Reported(a) == head + Reported(a[1..]);
      assert Reported(a + b) == head + (Reported(a[1..]) + Reported(b));
    }
  }

  lemma ViewsOfOne(e: Event)
    ensures CalledModules([e]) == (if e.ModuleCall? then [e.name] else [])
    ensures Reported([e]) == (if e.ErrorReported? then [e.err] else [])
  {
    assert [e][1..] == [];
  }

  // ---------------------------------------------------------------------
  // Schedules

  lemma {:induction false} MultisetAtMostOnceIsDistinct(order: seq<string>)
    requires forall x | x in multiset(order) :: multiset(order)[x] <= 1
    ensures forall i, j | 0 <= i < j < |order| :: order[i] != order[j]
    decreases |order|
  {
    if order != [] {
      assert order == [order[0]] + order[1..];
      assert multiset(order) == multiset([order[0]]) + multiset(order[1..]);
      forall x | x in multiset(order[1..])
        ensures multiset(order[1..])[x] <= 1
      {
        assert multiset(order)[x] >= multiset(order[1..])[x];
      }
      MultisetAtMostOnceIsDistinct(order[1..]);
      assert multiset(order)[order[0]] == 1 + multiset(order[1..])[order[0]];
      assert order[0] !in multiset(order[1..]);
      forall i, j | 0 <= i < j < |order|
        ensures order[i] != order[j]
      {
        if i == 0 {
          assert order[j] == order[1..][j - 1];
        } else {
          assert order[i] == order[1..][i - 1] && order[j] == order[1..][j - 1];
        }
      }
    }
  }

  lemma ScheduleInModules(order: seq<string>, modules: map<string, Call>)
    requires IsSchedule(order, modules)
    ensures forall i | 0 <= i < |order| :: order[i] in modules
  {
    forall i | 0 <= i < |order|
      ensures order[i] in modules
    {
      assert order[i] in multiset(order);
    }
  }

  /** A schedule names exactly the modules of the map, each once. */
  lemma ScheduleCoversModules(order: seq<string>, modules: map<string, Call>)
    requires IsSchedule(order, modules)
    ensures forall name :: name in order <==> name in modules
    ensures forall i, j | 0 <= i < j < |order| :: order[i] != order[j]
  {
    forall name
      ensures name in order <==> name in modules
    {
      assert name in order <==> name in multiset(order);
      assert name in modules <==> name in multiset(modules.Keys);
    }
    MultisetAtMostOnceIsDistinct(order);
  }

  // ---------------------------------------------------------------------
  // The module fan-out

  /** One module's goroutine: the module is called once with the context,
      and a returned error is reported after the call, tagged with the
      module's name, only when the error handler is non-nil. */
  function ModuleGoroutine(name: string, call: Call, ctx: Context, errorHandler: bool): (events: seq<Event>)
    ensures |events| > 0 && events[0] == ModuleCall(name, ctx)
    ensures CalledModules(events) == [name]
    ensures Reported(events)
            == if call.Returns? && call.err.Some? && errorHandler
               then [Wrapped(ModuleFailedMessage(name), call.err.value)] else []
    ensures forall e | e in events :: e == ModuleCall(name, ctx) || e.ErrorReported?
  {
    var head := [ModuleCall(name, ctx)];
    ViewsOfOne(head[0]);
    if call.Returns? && call.err.Some? && errorHandler then
      var tail := [ErrorReported(Wrapped(ModuleFailedMessage(name), call.err.value))];
      ViewsOfOne(tail[0]);
      ViewsConcat(head, tail);
      head + tail
    else
      head
  }

  /** All module goroutines, in schedule order. Every module is called
      once, with the shared context, and only module calls and module
      reports appear. */
  function FanOut(modules: map<string, Call>, order: seq<string>, ctx: Context, errorHandler: bool)
    : (events: seq<Event>)
    requires forall i | 0 <= i < |order| :: order[i] in modules
    ensures CalledModules(events) == order
    ensures forall e | e in events :: (e.ModuleCall? && e.ctx == ctx) || e.ErrorReported?
    decreases |order|
  {
    if order == [] then []
    else
      var own := ModuleGoroutine(order[0], modules[order[0]], ctx, errorHandler);
      var rest := FanOut(modules, order[1..], ctx, errorHandler);
      ViewsConcat(own, rest);
      own + rest
  }

  /** A report appears exactly when the error handler is non-nil and some
      scheduled module returned that error under its own name. */
  lemma {:induction false} FanOutReports(modules: map<string, Call>, order: seq<string>, ctx: Context,
                                         errorHandler: bool, err: Error)
    requires forall i | 0 <= i < |order| :: order[i] in modules
    ensures err in Reported(FanOut(modules, order, ctx, errorHandler)) <==>
              errorHandler && exists i | 0 <= i < |order| :: FailedWith(modules, order[i], err)
    decreases |order|
  {
    if order != [] {
      var own := ModuleGoroutine(order[0], modules[order[0]], ctx, errorHandler);
      var rest := FanOut(modules, order[1..], ctx, errorHandler);
      assert FanOut(modules, order, ctx, errorHandler) == own + rest;
      FanOutReports(modules, order[1..], ctx, errorHandler, err);
      ViewsConcat(own, rest);
      assert err in Reported(own) <==> errorHandler && FailedWith(modules, order[0], err);
      FailedSplit(modules, order, err);
    }
  }

  /** Some name of a schedule failed with `err`: its head or a name of its
      tail. */
  lemma FailedSplit(modules: map<string, Call>, order: seq<string>, err: Error)
    requires order != []
    ensures (exists i | 0 <= i < |order| :: FailedWith(modules, order[i], err))
            <==> FailedWith(modules, order[0], err)
                 || exists i | 0 <= i < |order[1..]| :: FailedWith(modules, order[1..][i], err)
  {
    if exists i | 0 <= i < |order| :: FailedWith(modules, order[i], err) {
      var i :| 0 <= i < |order| && FailedWith(modules, order[i], err);
      if i > 0 {
        assert order[1..][i - 1] == order[i];
      }
    }
    if exists i | 0 <= i < |order[1..]| :: FailedWith(modules, order[1..][i], err) {
      var i :| 0 <= i < |order[1..]| && FailedWith(modules, order[1..][i], err);
      assert order[i + 1] == order[1..][i];
    }
  }

  /** With distinct names, there are exactly as many reports as failing
      scheduled modules when the error handler is non-nil, and none
      otherwise. */
  lemma {:induction false} FanOutReportCount(modules: map<string, Call>, order: seq<string>, ctx: Context,
                                             errorHandler: bool)
    requires forall i | 0 <= i < |order| :: order[i] in modules
    requires forall i, j | 0 <= i < j < |order| :: order[i] != order[j]
    ensures |Reported(FanOut(modules, order, ctx, errorHandler))|
            == if errorHandler then |set name | name in order && Failing(modules, name)| else 0
    decreases |order|
  {
    if order != [] {
      var own := ModuleGoroutine(order[0], modules[order[0]], ctx, errorHandler);
      var rest := FanOut(modules, order[1..], ctx, errorHandler);
      FanOutReportCount(modules, order[1..], ctx, errorHandler);
      ViewsConcat(own, rest);
      FailingNamesSplit(modules, order);
    }
  }

  /** The failing names of a schedule: its head (when failing) and those of
      its tail, which cannot contain the head again. */
  lemma FailingNamesSplit(modules: map<string, Call>, order: seq<string>)
    requires order != []
    requires forall i, j | 0 <= i < j < |order| :: order[i] != order[j]
    ensures |set name | name in order && Failing(modules, name)|
            == (if Failing(modules, order[0]) then 1 else 0)
               + |set name | name in order[1..] && Failing(modules, name)|
  {
    var all := set name | name in order && Failing(modules, name);
    var later := set name | name in order[1..] && Failing(modules, name);
    assert order[0] !in order[1..];
    assert forall name :: name in order <==> name == order[0] || name in order[1..] by {
      assert order == [order[0]] + order[1..];
    }
    if Failing(modules, order[0]) {
      assert all == {order[0]} + later;
    } else {
      assert all == later;
    }
  }

  // ---------------------------------------------------------------------
  // After the delay

  /** The readiness checker, the announcement (only with a non-nil
      information handler) and the sleep: readiness once and first exactly
      when it is non-nil, the announcement once exactly when its handler is
      non-nil, the sleep once and last, and nothing else. */
  function Prelude(c: Config): (events: seq<Event>)
    ensures |events| == (if c.readinessChecker then 1 else 0) + (if c.informationHandler then 1 else 0) + 1
    ensures (events[0] == ReadinessShutdown) <==> c.readinessChecker
    ensures ReadinessShutdown in events <==> c.readinessChecker
    ensures forall i | 0 < i < |events| :: events[i] != ReadinessShutdown
    ensures events[|events| - 1] == Sleep(c.beforeShutdownTimeout)
    ensures Info(BeforeMessage, c.beforeShutdownTimeout) in events <==> c.informationHandler
    ensures forall e | e in events ::
              e == ReadinessShutdown || e == Info(BeforeMessage, c.beforeShutdownTimeout)
              || e == Sleep(c.beforeShutdownTimeout)
  {
    var a: seq<Event> := if c.readinessChecker then [ReadinessShutdown] else [];
    var b: seq<Event> := if c.informationHandler then [Info(BeforeMessage, c.beforeShutdownTimeout)] else [];
    a + b + [Sleep(c.beforeShutdownTimeout)]
  }

  /** The server step after every module has returned: a nil server is
      skipped; a server error goes to the error handler, which is called
      without a nil check and so panics when it is nil. */
  function ServerStep(server: Option<Call>, ctx: Context, errorHandler: bool): (r: Run)
    ensures r.exit.Returned? ==> r.exit.err == None
    ensures r.exit == Blocked <==> server == Some(Blocks)
    ensures r.exit == Panicked <==>
              server.Some? && server.value.Returns? && server.value.err.Some? && !errorHandler
    ensures ServerCall(ctx) in r.trace <==> server.Some?
    ensures forall e | e in r.trace :: e == ServerCall(ctx) || e.ErrorReported?
  {
    if server.None? then Run([], Returned(None))
    else match server.value
      case Blocks => Run([ServerCall(ctx)], Blocked)
      case Returns(None) => Run([ServerCall(ctx)], Returned(None))
      case Returns(Some(e)) =>
        if errorHandler then Run([ServerCall(ctx), ErrorReported(Wrapped(ServerFailedMessage, e))], Returned(None))
        else Run([ServerCall(ctx)], Panicked)
  }

  /** The module and server stage under one context. With no modules
      nothing is called. Otherwise every module is called, the wait for them
      has no deadline (a module that never returns blocks the whole call),
      and only then is the server step taken. The return value is nil
      whenever the call returns. */
  function ModulesAndServer(c: Config, order: seq<string>, ctx: Context): (r: Run)
    requires IsSchedule(order, c.modules)
    ensures |c.modules| == 0 ==> r == Run([], Returned(None))
    ensures r.exit.Returned? ==> r.exit.err == None
    ensures r.exit == Blocked <==>
              |c.modules| > 0 && (AnyBlocks(c.modules) || c.server == Some(Blocks))
    ensures r.exit == Panicked <==>
              && |c.modules| > 0 && !AnyBlocks(c.modules) && !c.errorHandler
              && c.server.Some? && c.server.value.Returns? && c.server.value.err.Some?
    ensures ServerCall(ctx) in r.trace <==> |c.modules| > 0 && !AnyBlocks(c.modules) && c.server.Some?
  {
    ScheduleInModules(order, c.modules);
    if |c.modules| == 0 then Run([], Returned(None))
    else
      var fan := FanOut(c.modules, order, ctx, c.errorHandler);
      assert ServerCall(ctx) !in fan;
      if AnyBlocks(c.modules) then Run(fan, Blocked)
      else
        var server := ServerStep(c.server, ctx, c.errorHandler);
        Run(fan + server.trace, server.exit)
  }

  /** A shutdown call under the context `ctx`: readiness, announcement and
      sleep, then the module and server stage. The readiness checker is
      called exactly when it is non-nil, and then first; the call never
      returns an error. */
  function ShutdownWith(c: Config, order: seq<string>, ctx: Context): (r: Run)
    requires IsSchedule(order, c.modules)
    ensures (|r.trace| > 0 && r.trace[0] == ReadinessShutdown) <==> c.readinessChecker
    ensures ReadinessShutdown in r.trace <==> c.readinessChecker
    ensures r.exit.Returned? ==> r.exit.err == None
    ensures r.exit == Blocked <==>
              |c.modules| > 0 && (AnyBlocks(c.modules) || c.server == Some(Blocks))
    ensures r.exit == Panicked <==>
              && |c.modules| > 0 && !AnyBlocks(c.modules) && !c.errorHandler
              && c.server.Some? && c.server.value.Returns? && c.server.value.err.Some?
  {
    var stage := ModulesAndServer(c, order, ctx);
    StageSteps(c, order, ctx);
    PreludeThenCalls(c, stage.trace);
    Run(Prelude(c) + stage.trace, stage.exit)
  }

  /** The readiness checker is called only when it is non-nil, and then
      once, as the first step; the announcement is made once exactly when
      the information handler is non-nil; the sleep happens exactly once. */
  lemma ReadinessOnce(c: Config, order: seq<string>, ctx: Context)
    requires IsSchedule(order, c.modules)
    ensures var t := ShutdownWith(c, order, ctx).trace;
            && (ReadinessShutdown in t <==> c.readinessChecker)
            && (forall i | 0 < i < |t| :: t[i] != ReadinessShutdown)
    ensures var m := multiset(ShutdownWith(c, order, ctx).trace);
            && m[ReadinessShutdown] == (if c.readinessChecker then 1 else 0)
            && m[Info(BeforeMessage, c.beforeShutdownTimeout)] == (if c.informationHandler then 1 else 0)
            && m[Sleep(c.beforeShutdownTimeout)] == 1
  {
    ShutdownParts(c, order, ctx);
    StageSteps(c, order, ctx);
    PreludeThenCalls(c, ModulesAndServer(c, order, ctx).trace);
    PreludeThenCallsCounts(c, ModulesAndServer(c, order, ctx).trace);
  }

  /** Appending calls and reports to the prelude adds no readiness step:
      it stays first exactly when the checker is non-nil, and nowhere else. */
  lemma PreludeThenCalls(c: Config, stage: seq<Event>)
    requires forall e | e in stage :: e.ModuleCall? || e.ServerCall? || e.ErrorReported?
    ensures var t := Prelude(c) + stage;
            && (t[0] == ReadinessShutdown <==> c.readinessChecker)
            && (ReadinessShutdown in t <==> c.readinessChecker)
            && (forall i | 0 < i < |t| :: t[i] != ReadinessShutdown)
  {
    var pre := Prelude(c);
    var t := pre + stage;
    forall i | 0 < i < |t|
      ensures t[i] != ReadinessShutdown
    {
      if i < |pre| {
        assert t[i] == pre[i];
      } else {
        assert t[i] == stage[i - |pre|];
        assert stage[i - |pre|] in stage;
      }
    }
    assert ReadinessShutdown in t <==> ReadinessShutdown in pre;
  }

  /** Appending calls and reports to the prelude leaves one readiness step
      for a non-nil checker, one announcement for a non-nil handler and one
      sleep. */
  lemma PreludeThenCallsCounts(c: Config, stage: seq<Event>)
    requires forall e | e in stage :: e.ModuleCall? || e.ServerCall? || e.ErrorReported?
    ensures var m := multiset(Prelude(c) + stage);
            && m[ReadinessShutdown] == (if c.readinessChecker then 1 else 0)
            && m[Info(BeforeMessage, c.beforeShutdownTimeout)] == (if c.informationHandler then 1 else 0)
            && m[Sleep(c.beforeShutdownTimeout)] == 1
  {
    var a: seq<Event> := if c.readinessChecker then [ReadinessShutdown] else [];
    var b: seq<Event> := if c.informationHandler then [Info(BeforeMessage, c.beforeShutdownTimeout)] else [];
    assert Prelude(c) == a + b + [Sleep(c.beforeShutdownTimeout)];
    assert multiset(Prelude(c) + stage)
        == multiset(a) + multiset(b) + multiset([Sleep(c.beforeShutdownTimeout)]) + multiset(stage);
    assert ReadinessShutdown !in stage;
    assert Info(BeforeMessage, c.beforeShutdownTimeout) !in stage;
    assert Sleep(c.beforeShutdownTimeout) !in stage;
  }

  /** The run is the prelude followed by the module and server stage. */
  lemma ShutdownParts(c: Config, order: seq<string>, ctx: Context)
    requires IsSchedule(order, c.modules)
    ensures ShutdownWith(c, order, ctx).trace == Prelude(c) + ModulesAndServer(c, order, ctx).trace
    ensures ShutdownWith(c, order, ctx).exit == ModulesAndServer(c, order, ctx).exit
  {
  }

  lemma PreludeViews(c: Config)
    ensures CalledModules(Prelude(c)) == [] && Reported(Prelude(c)) == []
  {
    var a: seq<Event> := if c.readinessChecker then [ReadinessShutdown] else [];
    var b: seq<Event> := if c.informationHandler then [Info(BeforeMessage, c.beforeShutdownTimeout)] else [];
    var d := [Sleep(c.beforeShutdownTimeout)];
    assert Prelude(c) == a + b + d;
    SmallViews(a);
    SmallViews(b);
    SmallViews(d);
    ViewsConcat(a, b);
    ViewsConcat(a + b, d);
  }

  /** A trace of at most one event that is neither a module call nor a
      report has empty views. */
  lemma SmallViews(a: seq<Event>)
    requires |a| <= 1
    requires forall e | e in a :: !e.ModuleCall? && !e.ErrorReported?
    ensures CalledModules(a) == [] && Reported(a) == []
  {
    if a != [] {
      assert a == [a[0]];
      ViewsOfOne(a[0]);
    }
  }

  /** The module and server stage contains only module calls, the server
      call and error reports, each call with the stage's context. */
  lemma StageSteps(c: Config, order: seq<string>, ctx: Context)
    requires IsSchedule(order, c.modules)
    ensures forall e | e in ModulesAndServer(c, order, ctx).trace ::
              (e.ModuleCall? && e.ctx == ctx) || e == ServerCall(ctx) || e.ErrorReported?
  {
    ScheduleInModules(order, c.modules);
    if |c.modules| > 0 && !AnyBlocks(c.modules) {
      var fan := FanOut(c.modules, order, ctx, c.errorHandler);
      var server := ServerStep(c.server, ctx, c.errorHandler);
      assert ModulesAndServer(c, order, ctx).trace == fan + server.trace;
    }
  }

  /** Readiness, the announcement and the sleep all come before every
      module call and the server call: no module is shut down before the
      pre-shutdown delay is over. */
  lemma PreludeBeforeCalls(c: Config, order: seq<string>, ctx: Context)
    requires IsSchedule(order, c.modules)
    ensures var t := ShutdownWith(c, order, ctx).trace;
            forall i, j | 0 <= i < |t| && 0 <= j < |t|
                          && (t[i].ReadinessShutdown? || t[i].Info? || t[i].Sleep?)
                          && (t[j].ModuleCall? || t[j].ServerCall?) :: i < j
  {
    ShutdownParts(c, order, ctx);
    StageSteps(c, order, ctx);
    CallsAfterPrelude(Prelude(c), ModulesAndServer(c, order, ctx).trace);
  }

  /** In a trace made of prelude steps followed by calls and reports, every
      prelude step comes before every call. */
  lemma CallsAfterPrelude(pre: seq<Event>, stage: seq<Event>)
    requires forall e | e in pre :: e.ReadinessShutdown? || e.Info? || e.Sleep?
    requires forall e | e in stage :: e.ModuleCall? || e.ServerCall? || e.ErrorReported?
    ensures var t := pre + stage;
            forall i, j | 0 <= i < |t| && 0 <= j < |t|
                          && (t[i].ReadinessShutdown? || t[i].Info? || t[i].Sleep?)
                          && (t[j].ModuleCall? || t[j].ServerCall?) :: i < j
  {
    var t := pre + stage;
    assert forall k | 0 <= k < |pre| :: t[k] == pre[k] && pre[k] in pre;
    assert forall k | |pre| <= k < |t| :: t[k] == stage[k - |pre|] && stage[k - |pre|] in stage;
  }

  /** The announcement is made exactly when the information handler is
      non-nil, and it is the only message; the sleep always happens. */
  lemma AnnouncementOnlyWithHandler(c: Config, order: seq<string>, ctx: Context)
    requires IsSchedule(order, c.modules)
    ensures Info(BeforeMessage, c.beforeShutdownTimeout) in ShutdownWith(c, order, ctx).trace
            <==> c.informationHandler
    ensures forall e | e in ShutdownWith(c, order, ctx).trace && e.Info? ::
              e == Info(BeforeMessage, c.beforeShutdownTimeout)
    ensures Sleep(c.beforeShutdownTimeout) in ShutdownWith(c, order, ctx).trace
  {
    ShutdownParts(c, order, ctx);
    StageSteps(c, order, ctx);
    PreludeMessages(c, ModulesAndServer(c, order, ctx).trace);
  }

  /** Behind the prelude, calls and reports add no message and no sleep. */
  lemma PreludeMessages(c: Config, stage: seq<Event>)
    requires forall e | e in stage :: e.ModuleCall? || e.ServerCall? || e.ErrorReported?
    ensures Info(BeforeMessage, c.beforeShutdownTimeout) in Prelude(c) + stage <==> c.informationHandler
    ensures forall e | e in Prelude(c) + stage && e.Info? :: e == Info(BeforeMessage, c.beforeShutdownTimeout)
    ensures Sleep(c.beforeShutdownTimeout) in Prelude(c) + stage
  {
    assert forall e | e in Prelude(c) + stage :: e in Prelude(c) || e in stage;
  }

  /** Every module is called exactly once. */
  lemma ModulesCalledOnce(c: Config, order: seq<string>, ctx: Context)
    requires IsSchedule(order, c.modules)
    ensures multiset(CalledModules(ShutdownWith(c, order, ctx).trace)) == multiset(c.modules.Keys)
  {
    var t := ShutdownWith(c, order, ctx).trace;
    var pre := Prelude(c);
    var stage := ModulesAndServer(c, order, ctx).trace;
    ShutdownParts(c, order, ctx);
    PreludeViews(c);
    ViewsConcat(pre, stage);
    StageCalls(c, order, ctx);
    assert CalledModules(t) == [] + order;
    assert [] + order == order;
  }

  /** Every module call, and the server call, carries the context `ctx`. */
  lemma CallsCarryContext(c: Config, order: seq<string>, ctx: Context)
    requires IsSchedule(order, c.modules)
    ensures forall e | e in ShutdownWith(c, order, ctx).trace && (e.ModuleCall? || e.ServerCall?) ::
              e.ctx == ctx
  {
    var pre := Prelude(c);
    var stage := ModulesAndServer(c, order, ctx).trace;
    ShutdownParts(c, order, ctx);
    StageSteps(c, order, ctx);
    assert forall e | e in pre + stage :: e in pre || e in stage;
  }

  /** The stage calls the modules in schedule order (none when there are
      none). */
  lemma StageCalls(c: Config, order: seq<string>, ctx: Context)
    requires IsSchedule(order, c.modules)
    ensures CalledModules(ModulesAndServer(c, order, ctx).trace) == order
  {
    ScheduleInModules(order, c.modules);
    if |c.modules| > 0 {
      var fan := FanOut(c.modules, order, ctx, c.errorHandler);
      if !AnyBlocks(c.modules) {
        var server := ServerStep(c.server, ctx, c.errorHandler);
        assert ModulesAndServer(c, order, ctx).trace == fan + server.trace;
        ViewsConcat(fan, server.trace);
        NoModuleCalls(server.trace);
        assert CalledModules(fan + server.trace) == order + [];
      } else {
        assert ModulesAndServer(c, order, ctx).trace == fan;
      }
    } else {
      assert |multiset(order)| == |order|;
    }
  }

  lemma {:induction false} NoModuleCalls(trace: seq<Event>)
    requires forall e | e in trace :: !e.ModuleCall?
    ensures CalledModules(trace) == []
  {
    if trace != [] {
      assert trace[0] in trace;
      NoModuleCalls(trace[1..]);
    }
  }

  /** With no modules, neither a module nor the server is shut down, and the
      call returns. */
  lemma NoModulesNothingShutDown(c: Config, order: seq<string>, ctx: Context)
    requires IsSchedule(order, c.modules)
    requires |c.modules| == 0
    ensures forall e | e in ShutdownWith(c, order, ctx).trace :: !e.ModuleCall? && !e.ServerCall?
    ensures ShutdownWith(c, order, ctx).exit == Returned(None)
  {
    ShutdownParts(c, order, ctx);
    assert ModulesAndServer(c, order, ctx) == Run([], Returned(None));
    assert ShutdownWith(c, order, ctx).trace == Prelude(c) + [] == Prelude(c);
  }

  /** Inside the stage, the server call comes after every module call. */
  lemma StageServerLast(c: Config, order: seq<string>, ctx: Context)
    requires IsSchedule(order, c.modules)
    ensures ServerLast(ModulesAndServer(c, order, ctx).trace)
  {
    var t := ModulesAndServer(c, order, ctx).trace;
    ScheduleInModules(order, c.modules);
    if |c.modules| > 0 {
      var fan := FanOut(c.modules, order, ctx, c.errorHandler);
      if !AnyBlocks(c.modules) {
        var server := ServerStep(c.server, ctx, c.errorHandler);
        assert t == fan + server.trace;
        ServerLastOfParts(fan, server.trace);
      } else {
        assert t == fan;
        ServerLastOfParts(fan, []);
        assert fan + [] == fan;
      }
    }
  }

  /** Module calls and reports, then server steps: the server is last. */
  lemma ServerLastOfParts(fan: seq<Event>, server: seq<Event>)
    requires forall e | e in fan :: !e.ServerCall?
    requires forall e | e in server :: !e.ModuleCall?
    ensures ServerLast(fan + server)
  {
    var t := fan + server;
    assert forall k | 0 <= k < |fan| :: t[k] == fan[k] && fan[k] in fan;
    assert forall k | |fan| <= k < |t| :: t[k] == server[k - |fan|] && server[k - |fan|] in server;
  }

  /** No module call follows a server call. */
  ghost predicate ServerLast(t: seq<Event>)
  {
    forall i, j | 0 <= i < |t| && 0 <= j < |t| && t[i].ModuleCall? && t[j].ServerCall? :: i < j
  }

  /** Putting a prefix without module or server calls in front keeps the
      server last. */
  lemma ServerLastAfterPrefix(pre: seq<Event>, t: seq<Event>, ctx: Context)
    requires forall k | 0 <= k < |pre| :: !pre[k].ModuleCall? && !pre[k].ServerCall?
    requires ServerLast(t)
    ensures ServerLast(pre + t)
    ensures ServerCall(ctx) in pre + t <==> ServerCall(ctx) in t
  {
    var u := pre + t;
    forall i, j | 0 <= i < |u| && 0 <= j < |u| && u[i].ModuleCall? && u[j].ServerCall?
      ensures i < j
    {
      assert u[i] == t[i - |pre|] && u[j] == t[j - |pre|];
    }
  }

  /** The server is called only after every module call, and it is called
      exactly when there is at least one module, none of them blocks, and
      the server is non-nil. */
  lemma ServerAfterModules(c: Config, order: seq<string>, ctx: Context)
    requires IsSchedule(order, c.modules)
    ensures ServerLast(ShutdownWith(c, order, ctx).trace)
    ensures ServerCall(ctx) in ShutdownWith(c, order, ctx).trace
            <==> |c.modules| > 0 && !AnyBlocks(c.modules) && c.server.Some?
  {
    var pre := Prelude(c);
    ShutdownParts(c, order, ctx);
    StageServerLast(c, order, ctx);
    assert forall k | 0 <= k < |pre| :: pre[k] in pre;
    ServerLastAfterPrefix(pre, ModulesAndServer(c, order, ctx).trace, ctx);
  }

  /** Every module's report comes before the server call, and only the
      server's own report follows it: the server is shut down after every
      module goroutine, its report included, has finished. */
  lemma ModuleReportsBeforeServer(c: Config, order: seq<string>, ctx: Context)
    requires IsSchedule(order, c.modules)
    ensures var t := ShutdownWith(c, order, ctx).trace;
            forall k | 0 <= k < |t| && t[k] == ServerCall(ctx) ::
              && Reported(t[k..]) == ServerReport(c)
              && forall err :: err in Reported(t[..k]) <==>
                   c.errorHandler && exists name | name in c.modules :: FailedWith(c.modules, name, err)
  {
    var t := ShutdownWith(c, order, ctx).trace;
    ServerAfterModules(c, order, ctx);
    ScheduleInModules(order, c.modules);
    if |c.modules| > 0 && !AnyBlocks(c.modules) && c.server.Some? {
      var u := Prelude(c) + FanOut(c.modules, order, ctx, c.errorHandler);
      var server := ServerStep(c.server, ctx, c.errorHandler).trace;
      RunAtServer(c, order, ctx);
      ServerStepShape(c.server, ctx, c.errorHandler);
      ReportsAtMarker(u, server, ServerCall(ctx));
      ReportsBeforeServer(c, order, ctx);
      ServerStepReports(c.server, ctx, c.errorHandler);
    } else {
      assert forall k | 0 <= k < |t| :: t[k] in t;
    }
  }

  /** A run that reaches the server: the prelude and the module
      goroutines, none of them a server call, then the server step. */
  lemma RunAtServer(c: Config, order: seq<string>, ctx: Context)
    requires IsSchedule(order, c.modules)
    requires forall i | 0 <= i < |order| :: order[i] in c.modules
    requires |c.modules| > 0 && !AnyBlocks(c.modules) && c.server.Some?
    ensures var u := Prelude(c) + FanOut(c.modules, order, ctx, c.errorHandler);
            && ShutdownWith(c, order, ctx).trace == u + ServerStep(c.server, ctx, c.errorHandler).trace
            && ServerCall(ctx) !in u
  {
    var pre := Prelude(c);
    var fan := FanOut(c.modules, order, ctx, c.errorHandler);
    var server := ServerStep(c.server, ctx, c.errorHandler).trace;
    ShutdownParts(c, order, ctx);
    StageAtServer(c, order, ctx);
    Regroup(pre, fan, server);
    NoServerCallBefore(pre, fan, ctx);
  }

  /** A stage that reaches the server: the module goroutines, then the
      server step. */
  lemma StageAtServer(c: Config, order: seq<string>, ctx: Context)
    requires IsSchedule(order, c.modules)
    requires forall i | 0 <= i < |order| :: order[i] in c.modules
    requires |c.modules| > 0 && !AnyBlocks(c.modules)
    ensures ModulesAndServer(c, order, ctx).trace
            == FanOut(c.modules, order, ctx, c.errorHandler) + ServerStep(c.server, ctx, c.errorHandler).trace
  {
  }

  lemma Regroup(a: seq<Event>, b: seq<Event>, c: seq<Event>)
    ensures a + (b + c) == (a + b) + c
  {
  }

  /** Prelude steps and module goroutine steps are never the server call. */
  lemma NoServerCallBefore(pre: seq<Event>, fan: seq<Event>, ctx: Context)
    requires forall e | e in pre :: e.ReadinessShutdown? || e.Info? || e.Sleep?
    requires forall e | e in fan :: e.ModuleCall? || e.ErrorReported?
    ensures ServerCall(ctx) !in pre + fan
  {
  }

  /** The reports of the prelude and the module goroutines are exactly the
      tagged failures of the map's modules, when the handler is non-nil. */
  lemma ReportsBeforeServer(c: Config, order: seq<string>, ctx: Context)
    requires IsSchedule(order, c.modules)
    requires forall i | 0 <= i < |order| :: order[i] in c.modules
    ensures forall err :: err in Reported(Prelude(c) + FanOut(c.modules, order, ctx, c.errorHandler)) <==>
              c.errorHandler && exists name | name in c.modules :: FailedWith(c.modules, name, err)
  {
    var pre := Prelude(c);
    var fan := FanOut(c.modules, order, ctx, c.errorHandler);
    PreludeViews(c);
    ViewsConcat(pre, fan);
    assert Reported(pre + fan) == [] + Reported(fan);
    forall err
      ensures err in Reported(fan) <==>
                c.errorHandler && exists name | name in c.modules :: FailedWith(c.modules, name, err)
    {
      FanOutReports(c.modules, order, ctx, c.errorHandler, err);
      FailedInSchedule(c.modules, order, err);
    }
  }

  /** A server that is reached is called first, and only its report can
      follow. */
  lemma ServerStepShape(server: Option<Call>, ctx: Context, errorHandler: bool)
    requires server.Some?
    ensures var t := ServerStep(server, ctx, errorHandler).trace;
            |t| > 0 && t[0] == ServerCall(ctx) && forall i | 0 < i < |t| :: t[i].ErrorReported?
  {
  }

  /** Splitting a trace at a marker step that opens its second part. */
  lemma ReportsAtMarker(u: seq<Event>, d: seq<Event>, x: Event)
    requires x !in u && |d| > 0 && d[0] == x
    requires forall i | 0 < i < |d| :: d[i] != x
    ensures forall k | 0 <= k < |u + d| && (u + d)[k] == x ::
              Reported((u + d)[..k]) == Reported(u) && Reported((u + d)[k..]) == Reported(d)
  {
    forall k | 0 <= k < |u + d| && (u + d)[k] == x
      ensures (u + d)[..k] == u && (u + d)[k..] == d
    {
      MarkerSplit(u, d, x, k);
    }
  }

  /** The server's report: present when the server is reached, returns an
      error, and the error handler is non-nil. */
  function ServerReport(c: Config): seq<Error>
  {
    if && c.errorHandler && |c.modules| > 0 && !AnyBlocks(c.modules)
       && c.server.Some? && c.server.value.Returns? && c.server.value.err.Some?
    then [Wrapped(ServerFailedMessage, c.server.value.err.value)]
    else []
  }

  lemma ServerStepReports(server: Option<Call>, ctx: Context, errorHandler: bool)
    ensures Reported(ServerStep(server, ctx, errorHandler).trace)
            == if errorHandler && server.Some? && server.value.Returns? && server.value.err.Some?
               then [Wrapped(ServerFailedMessage, server.value.err.value)] else []
  {
    ViewsOfOne(ServerCall(ctx));
    if server.Some? && server.value.Returns? && server.value.err.Some? && errorHandler {
      var r := ErrorReported(Wrapped(ServerFailedMessage, server.value.err.value));
      ViewsOfOne(r);
      ViewsConcat([ServerCall(ctx)], [r]);
      assert [ServerCall(ctx), r] == [ServerCall(ctx)] + [r];
    }
  }

  /** The reports of a run: those of the module goroutines, in schedule
      order, then the server's. */
  lemma ReportsSplit(c: Config, order: seq<string>, ctx: Context)
    requires IsSchedule(order, c.modules)
    requires forall i | 0 <= i < |order| :: order[i] in c.modules
    ensures Reported(ShutdownWith(c, order, ctx).trace)
            == Reported(FanOut(c.modules, order, ctx, c.errorHandler)) + ServerReport(c)
  {
    var pre := Prelude(c);
    var stage := ModulesAndServer(c, order, ctx).trace;
    var fan := FanOut(c.modules, order, ctx, c.errorHandler);
    ShutdownParts(c, order, ctx);
    PreludeViews(c);
    ViewsConcat(pre, stage);
    assert Reported(pre + stage) == [] + Reported(stage);
    if |c.modules| == 0 {
      assert |multiset(order)| == |order|;
    } else if AnyBlocks(c.modules) {
      assert stage == fan;
    } else {
      var server := ServerStep(c.server, ctx, c.errorHandler);
      assert stage == fan + server.trace;
      ViewsConcat(fan, server.trace);
      ServerStepReports(c.server, ctx, c.errorHandler);
    }
  }

  /** An error reaches the error handler exactly when the handler is
      non-nil and the error is some module's failure tagged with its name,
      or the server's failure once every module has returned. */
  lemma ReportsOfRun(c: Config, order: seq<string>, ctx: Context, err: Error)
    requires IsSchedule(order, c.modules)
    ensures err in Reported(ShutdownWith(c, order, ctx).trace) <==>
              || (c.errorHandler && exists name | name in c.modules :: FailedWith(c.modules, name, err))
              || err in ServerReport(c)
  {
    ScheduleInModules(order, c.modules);
    ReportsSplit(c, order, ctx);
    PartsReports(c, order, ctx, err);
  }

  lemma PartsReports(c: Config, order: seq<string>, ctx: Context, err: Error)
    requires IsSchedule(order, c.modules)
    requires forall i | 0 <= i < |order| :: order[i] in c.modules
    ensures err in Reported(FanOut(c.modules, order, ctx, c.errorHandler)) + ServerReport(c) <==>
              || (c.errorHandler && exists name | name in c.modules :: FailedWith(c.modules, name, err))
              || err in ServerReport(c)
  {
    var fan := FanOut(c.modules, order, ctx, c.errorHandler);
    FanOutReports(c.modules, order, ctx, c.errorHandler, err);
    FailedInSchedule(c.modules, order, err);
    assert err in Reported(fan) + ServerReport(c) <==> err in Reported(fan) || err in ServerReport(c);
  }

  /** Some scheduled module failed with `err` exactly when some module of
      the map did. */
  lemma FailedInSchedule(modules: map<string, Call>, order: seq<string>, err: Error)
    requires IsSchedule(order, modules)
    ensures (exists i | 0 <= i < |order| :: FailedWith(modules, order[i], err))
            <==> exists name | name in modules :: FailedWith(modules, name, err)
  {
    if exists name | name in modules :: FailedWith(modules, name, err) {
      var name :| name in modules && FailedWith(modules, name, err);
      assert name in multiset(modules.Keys);
      assert name in multiset(order);
      var i :| 0 <= i < |order| && order[i] == name;
      assert FailedWith(modules, order[i], err);
    }
  }

  /** The number of reports: one per failing module when the handler is
      non-nil, plus the server's. */
  lemma ReportCountOfRun(c: Config, order: seq<string>, ctx: Context)
    requires IsSchedule(order, c.modules)
    ensures |Reported(ShutdownWith(c, order, ctx).trace)|
            == (if c.errorHandler then |set name | name in c.modules && Failing(c.modules, name)| else 0)
               + |ServerReport(c)|
  {
    ScheduleInModules(order, c.modules);
    ReportsSplit(c, order, ctx);
    PartsReportCount(c, order, ctx);
  }

  lemma PartsReportCount(c: Config, order: seq<string>, ctx: Context)
    requires IsSchedule(order, c.modules)
    requires forall i | 0 <= i < |order| :: order[i] in c.modules
    ensures |Reported(FanOut(c.modules, order, ctx, c.errorHandler)) + ServerReport(c)|
            == (if c.errorHandler then |set name | name in c.modules && Failing(c.modules, name)| else 0)
               + |ServerReport(c)|
  {
    var fan := FanOut(c.modules, order, ctx, c.errorHandler);
    ScheduleCoversModules(order, c.modules);
    FanOutReportCount(c.modules, order, ctx, c.errorHandler);
    FailingSetsAgree(c.modules, order);
    assert |Reported(fan) + ServerReport(c)| == |Reported(fan)| + |ServerReport(c)|;
  }

  lemma FailingSetsAgree(modules: map<string, Call>, order: seq<string>)
    requires forall name :: name in order <==> name in modules
    ensures (set name | name in order && Failing(modules, name))
            == (set name | name in modules && Failing(modules, name))
  {
  }
}

=== FILE: shutdown.dfy ===
/** The main shutdown variant, `gracefulShutdownApp.Shutdown`: revoke
    readiness, wait the pre-shutdown delay, shut the modules down under the
    module timeout, then the server under the server timeout.

    Goroutines, channels and clocks are collapsed: each task is given by
    its outcome relative to the phase deadline (`Finished` with an optional
    error, or `Overran`), each phase by the case its `select` in `wait`
    takes once every task has finished, and a call of `Shutdown` yields the
    trace of calls and log entries it makes plus its exit. Tasks of one
    phase run concurrently in the program, so neither their calls nor their
    error logs have a fixed order; the trace lists them in slice order, one
    of the interleavings the program allows. */
module PhasedShutdown {
  import opened GoTypes
  import opened Timeouts

  /** How one task's `Shutdown(ctx)` ended relative to its phase deadline. */
  datatype Outcome = Finished(err: Option<Error>) | Overran

  /** Which case the `select` in `wait` takes when every task of the phase
      has finished: normally `done`; but `ctx.Done()` may win when the
      deadline had already passed (a non-positive timeout) or passes as
      `done` arrives, since Go picks among ready cases at random. While a
      task is still running only the deadline can fire. */
  datatype Select = DoneFirst | DeadlineFirst

  /** The module at a slice index, or the server. */
  datatype Task = Module(index: nat) | Server

  /** A task of a phase together with its outcome. */
  datatype Job = Job(task: Task, outcome: Outcome)

  /** Observable steps: the readiness checker's `Shutdown()`, `Logger.Info`
      (the message text and the duration appended to it), the pre-shutdown
      sleep, a task's `Shutdown(ctx)` call, and `Logger.Error`. */
  datatype Event =
    | ReadinessShutdown
    | Info(message: string, d: Duration)
    | Sleep(d: Duration)
    | Invoke(task: Task, ctx: Context)
    | LogError(err: Error)

  /** `Shutdown` returns an error value, or panics on a nil `Logger`. */
  datatype Exit = Returned(err: Option<Error>) | Panicked

  datatype Run = Run(trace: seq<Event>, exit: Exit)

  /** The app: its `Timeouts`, whether the readiness checker and the logger
      are non-nil, the behaviour of each module and of the server, and how
      the `select` of each phase resolves. */
  datatype App = App(timeouts: Timeouts, readinessChecker: bool, logger: bool,
                     modules: seq<Outcome>, server: Outcome,
                     modulesSelect: Select, serverSelect: Select)

  const BeforeMessage := "waiting for the termination of running processes"
  const ModulesMessage := "timeout for shutdown modules = "
  const ServerMessage := "timeout for shutdown server = "
  const ModulesFailedMessage := "modules shutdown failed"
  const ServerFailedMessage := "server shutdown failed"

  // ---------------------------------------------------------------------
  // Views of a trace

  /** The steps that fix the phase order: readiness, messages, the sleep
      and task calls; everything but error logs. */
  predicate IsMilestone(e: Event)
  {
    !e.LogError?
  }

  function Milestones(trace: seq<Event>): seq<Event>
  {
    if trace == [] then []
    else (if IsMilestone(trace[0]) then [trace[0]] else []) + Milestones(trace[1..])
  }

  /** The messages passed to `Logger.Info`, in trace order. */
  function Infos(trace: seq<Event>): seq<Event>
  {
    if trace == [] then []
    else (if trace[0].Info? then [trace[0]] else []) + Infos(trace[1..])
  }

  /** The errors passed to `Logger.Error`, in trace order. */
  function LoggedErrors(trace: seq<Event>): seq<Error>
  {
    if trace == [] then []
    else (if trace[0].LogError? then [trace[0].err] else []) + LoggedErrors(trace[1..])
  }

  /** The three views of a trace side by side. */
  datatype Views = Views(milestones: seq<Event>, infos: seq<Event>, errors: seq<Error>)
  {
    function Plus(w: Views): Views
    {
      Views(milestones + w.milestones, infos + w.infos, errors + w.errors)
    }
  }

  function ViewsOf(trace: seq<Event>): Views
  {
    Views(Milestones(trace), Infos(trace), LoggedErrors(trace))
  }

  /** Views of a single step. */
  lemma ViewsOfOne(e: Event)
    ensures ViewsOf([e]) == Views(if IsMilestone(e) then [e] else [],
                                  if e.Info? then [e] else [],
                                  if e.LogError? then [e.err] else [])
  {
    assert [e][1..] == [];
    assert Milestones([e]) == (if IsMilestone(e) then [e] else []) + Milestones([]);
    assert Infos([e]) == (if e.Info? then [e] else []) + Infos([]);
    assert LoggedErrors([e]) == (if e.LogError? then [e.err] else []) + LoggedErrors([]);
  }

  /** Each view distributes over concatenation of traces. */
  lemma {:induction false} ViewsConcat(a: seq<Event>, b: seq<Event>)
    ensures ViewsOf(a + b) == ViewsOf(a).Plus(ViewsOf(b))
  {
    if a == [] {
      assert a + b == b;
    } else {
      assert (a + b)[1..] == a[1..] + b;
      ViewsConcat(a[1..], b);
    }
  }

  /** The milestone view holds only steps of the trace. */
  lemma {:induction false} MilestonesInTrace(trace: seq<Event>, e: Event)
    requires e in Milestones(trace)
    ensures e in trace
  {
    if trace[0] != e {
      MilestonesInTrace(trace[1..], e);
    }
  }

  // ---------------------------------------------------------------------
  // Reference views of the jobs

  /** One `Shutdown(ctx)` call per job, in order. */
  function Invocations(jobs: seq<Job>, ctx: Context): seq<Event>
  {
    seq(|jobs|, i requires 0 <= i < |jobs| => Invoke(jobs[i].task, ctx))
  }

  /** The error a job leaves for the log: its own, when it finished with one. */
  function JobFailure(job: Job): seq<Error>
  {
    if job.outcome.Finished? && job.outcome.err.Some? then [job.outcome.err.value] else []
  }

  /** The errors of the jobs that finished with one, in order. */
  function Failures(jobs: seq<Job>): seq<Error>
  {
    if jobs == [] then [] else JobFailure(jobs[0]) + Failures(jobs[1..])
  }

  predicate AnyOverran(jobs: seq<Job>)
  {
    exists i | 0 <= i < |jobs| :: jobs[i].outcome.Overran?
  }

  function ModuleJobs(modules: seq<Outcome>): seq<Job>
  {
    seq(|modules|, i requires 0 <= i < |modules| => Job(Module(i), modules[i]))
  }

  /** The module phase has an overrun job exactly when some module overran. */
  lemma OverranModules(modules: seq<Outcome>)
    ensures AnyOverran(ModuleJobs(modules)) <==> exists k | 0 <= k < |modules| :: modules[k] == Overran
  {
    var jobs := ModuleJobs(modules);
    if AnyOverran(jobs) {
      var i :| 0 <= i < |jobs| && jobs[i].outcome.Overran?;
      assert modules[i] == Overran;
    }
    if exists k | 0 <= k < |modules| :: modules[k] == Overran {
      var k :| 0 <= k < |modules| && modules[k] == Overran;
      assert jobs[k].outcome.Overran?;
    }
  }

  /** An error is among the failures exactly when some job finished with it. */
  lemma {:induction false} FailuresMembership(jobs: seq<Job>, e: Error)
    ensures e in Failures(jobs) <==>
              exists i | 0 <= i < |jobs| :: jobs[i].outcome == Finished(Some(e))
    decreases |jobs|
  {
    if jobs != [] {
      FailuresMembership(jobs[1..], e);
      assert forall i | 0 < i < |jobs| :: jobs[i] == jobs[1..][i - 1];
    }
  }

  // ---------------------------------------------------------------------
  // The phase helpers

  /** The result of `turnOffModules`: its trace, and whether every task
      finished, so that `done` is signalled before the deadline. */
  datatype FanOut = FanOut(events: seq<Event>, allDone: bool)

  /** One task's goroutine: call it, and log its error, if it returned
      one, after the call. */
  function TurnOffOne(ctx: Context, job: Job): (events: seq<Event>)
    ensures |events| > 0 && events[0] == Invoke(job.task, ctx)
    ensures ViewsOf(events) == Views([Invoke(job.task, ctx)], [], JobFailure(job))
  {
    var call := [Invoke(job.task, ctx)];
    ViewsOfOne(call[0]);
    if job.outcome.Finished? && job.outcome.err.Some? then
      var log := [LogError(job.outcome.err.value)];
      ViewsOfOne(log[0]);
      ViewsConcat(call, log);
      call + log
    else
      call
  }

  /** `turnOffModules`: every task is called with the phase context, and
      `done` is signalled exactly when every task finished. */
  function TurnOffModules(ctx: Context, jobs: seq<Job>): (r: FanOut)
    ensures r.allDone <==> forall i | 0 <= i < |jobs| :: jobs[i].outcome.Finished?
    decreases |jobs|
  {
    if jobs == [] then FanOut([], true)
    else
      var rest := TurnOffModules(ctx, jobs[1..]);
      assert forall i | 0 < i < |jobs| :: jobs[i] == jobs[1..][i - 1];
      FanOut(TurnOffOne(ctx, jobs[0]) + rest.events, jobs[0].outcome.Finished? && rest.allDone)
  }

  /** Every task is called once, in order, with the phase context; each
      task that finishes with an error has it logged; no task's failure or
      overrun keeps the others from being called. */
  lemma {:induction false} TurnOffModulesViews(ctx: Context, jobs: seq<Job>)
    ensures ViewsOf(TurnOffModules(ctx, jobs).events) == Views(Invocations(jobs, ctx), [], Failures(jobs))
    decreases |jobs|
  {
    if jobs != [] {
      var head := TurnOffOne(ctx, jobs[0]);
      var rest := TurnOffModules(ctx, jobs[1..]).events;
      assert TurnOffModules(ctx, jobs).events == head + rest;
      TurnOffModulesViews(ctx, jobs[1..]);
      ViewsConcat(head, rest);
      InvocationsCons(jobs, ctx);
      var none: seq<Event> := [];
      assert ViewsOf(head).Plus(ViewsOf(rest))
          == Views([Invoke(jobs[0].task, ctx)] + Invocations(jobs[1..], ctx), none + none,
                   JobFailure(jobs[0]) + Failures(jobs[1..]));
      assert none + none == none;
    }
  }

  lemma InvocationsCons(jobs: seq<Job>, ctx: Context)
    requires jobs != []
    ensures Invocations(jobs, ctx) == [Invoke(jobs[0].task, ctx)] + Invocations(jobs[1..], ctx)
  {
  }

  /** `wait`: nil only when every task finished and the `select` took
      `done`; otherwise `ErrTimedOut`, the only error it returns. */
  function Wait(allDone: bool, select: Select): (r: Option<Error>)
    ensures r == None || r == Some(TimedOut)
    ensures r == None ==> allDone
    ensures allDone && select == DoneFirst ==> r == None
    ensures !allDone ==> r == Some(TimedOut)
  {
    if allDone && select == DoneFirst then None else Some(TimedOut)
  }

  /** A phase times out when some task overran its deadline, or when the
      `select` took the deadline although every task had finished. */
  predicate TimesOut(jobs: seq<Job>, select: Select)
  {
    AnyOverran(jobs) || select == DeadlineFirst
  }

  datatype PhaseResult = PhaseResult(events: seq<Event>, err: Option<Error>)

  /** `shutdown`: run the tasks under a fresh context with the timeout and
      wait. The result is `ErrTimedOut` exactly when some task overran or
      the deadline won the `select`, also for a phase without tasks; a
      task's own error is only logged and never becomes the result. */
  function ShutdownPhase(timeout: Duration, jobs: seq<Job>, select: Select): (r: PhaseResult)
    ensures r.err == None || r.err == Some(TimedOut)
    ensures r.err == Some(TimedOut) <==> TimesOut(jobs, select)
    ensures ViewsOf(r.events) == Views(Invocations(jobs, WithTimeout(Background, timeout)), [], Failures(jobs))
  {
    var fanOut := TurnOffModules(WithTimeout(Background, timeout), jobs);
    TurnOffModulesViews(WithTimeout(Background, timeout), jobs);
    PhaseResult(fanOut.events, Wait(fanOut.allDone, select))
  }

  // ---------------------------------------------------------------------
  // The app

  /** The readiness checker's `Shutdown()`, called once exactly when the
      checker is non-nil. */
  function ReadinessStep(app: App): (events: seq<Event>)
    ensures |events| <= 1 && (ReadinessShutdown in events <==> app.readinessChecker)
    ensures forall e | e in events :: e == ReadinessShutdown
    ensures ViewsOf(events) == Views(events, [], [])
  {
    if app.readinessChecker then ViewsOfOne(ReadinessShutdown); [ReadinessShutdown] else []
  }

  /** `waitBeforeShutdown`: announce the defaulted pre-shutdown delay, then
      sleep for it. */
  function WaitBeforeShutdown(app: App): (events: seq<Event>)
    ensures ViewsOf(events)
            == Views([Info(BeforeMessage, GetBeforeTimeout(app.timeouts)), Sleep(GetBeforeTimeout(app.timeouts))],
                     [Info(BeforeMessage, GetBeforeTimeout(app.timeouts))], [])
  {
    var t := GetBeforeTimeout(app.timeouts);
    ViewsOfOne(Info(BeforeMessage, t));
    ViewsOfOne(Sleep(t));
    ViewsConcat([Info(BeforeMessage, t)], [Sleep(t)]);
    [Info(BeforeMessage, t)] + [Sleep(t)]
  }

  /** Runs one phase under the timeout after announcing it, and logs the
      phase's timeout wrapped with the given message. */
  function AnnouncedPhase(message: string, timeout: Duration, jobs: seq<Job>, select: Select, failed: string)
    : (r: PhaseResult)
    ensures r.err == (if TimesOut(jobs, select) then Some(TimedOut) else None)
    ensures ViewsOf(r.events)
            == Views([Info(message, timeout)] + Invocations(jobs, WithTimeout(Background, timeout)),
                     [Info(message, timeout)],
                     Failures(jobs) + (if TimesOut(jobs, select) then [Wrapped(failed, TimedOut)] else []))
  {
    var phase := ShutdownPhase(timeout, jobs, select);
    var announce := [Info(message, timeout)];
    ViewsOfOne(announce[0]);
    ViewsConcat(announce, phase.events);
    if phase.err.Some? then
      var log := [LogError(Wrapped(failed, phase.err.value))];
      ViewsOfOne(log[0]);
      ViewsConcat(announce + phase.events, log);
      PhaseResult(announce + phase.events + log, phase.err)
    else
      PhaseResult(announce + phase.events, phase.err)
  }

  /** `shutdownModules`: announce the defaulted module timeout, run the
      module phase, and log its timeout wrapped as "modules shutdown
      failed". Nothing is returned: the phase result goes to the log only. */
  function ShutdownModules(app: App): (events: seq<Event>)
    ensures ViewsOf(events)
            == Views([Info(ModulesMessage, GetModuleTimeout(app.timeouts))]
                     + Invocations(ModuleJobs(app.modules), WithTimeout(Background, GetModuleTimeout(app.timeouts))),
                     [Info(ModulesMessage, GetModuleTimeout(app.timeouts))],
                     Failures(ModuleJobs(app.modules))
                     + (if TimesOut(ModuleJobs(app.modules), app.modulesSelect)
                        then [Wrapped(ModulesFailedMessage, TimedOut)] else []))
  {
    AnnouncedPhase(ModulesMessage, GetModuleTimeout(app.timeouts), ModuleJobs(app.modules), app.modulesSelect,
                   ModulesFailedMessage).events
  }

  /** `shutdownServer`: announce the defaulted server timeout, run the
      server alone as a phase, log its timeout wrapped as "server shutdown
      failed", and return the phase result: `ErrTimedOut` exactly when the
      server overran or the deadline won the phase's `select`. */
  function ShutdownServer(app: App): (r: PhaseResult)
    ensures r.err == (if ServerTimesOut(app) then Some(TimedOut) else None)
    ensures ViewsOf(r.events)
            == Views([Info(ServerMessage, GetServerTimeout(app.timeouts)),
                      Invoke(Server, WithTimeout(Background, GetServerTimeout(app.timeouts)))],
                     [Info(ServerMessage, GetServerTimeout(app.timeouts))],
                     JobFailure(Job(Server, app.server))
                     + (if ServerTimesOut(app) then [Wrapped(ServerFailedMessage, TimedOut)] else []))
  {
    var jobs := [Job(Server, app.server)];
    assert AnyOverran(jobs) <==> jobs[0].outcome.Overran?;
    assert Failures(jobs) == JobFailure(jobs[0]) by {
      assert jobs[1..] == [];
    }
    AnnouncedPhase(ServerMessage, GetServerTimeout(app.timeouts), jobs, app.serverSelect, ServerFailedMessage)
  }

  /** The server phase times out: the server overran, or the deadline won
      the `select`. */
  predicate ServerTimesOut(app: App)
  {
    app.server.Overran? || app.serverSelect == DeadlineFirst
  }

  /** `gracefulShutdownApp.Shutdown`. The logger is called without a nil
      check, so a nil logger panics at the first message, after the
      readiness checker. With a logger, the result is exactly the server
      phase's: `ErrTimedOut` when that phase timed out, and nil otherwise,
      even when the server finished with an error of its own; the module
      phase never reaches it. */
  function Shutdown(app: App): (r: Run)
    ensures r.exit == Panicked <==> !app.logger
    ensures app.logger ==>
              r.exit == Returned(if ServerTimesOut(app) then Some(TimedOut) else None)
    ensures (|r.trace| > 0 && r.trace[0] == ReadinessShutdown) <==> app.readinessChecker
    ensures !app.logger ==> |r.trace| <= 1 && forall e | e in r.trace :: e == ReadinessShutdown
  {
    if !app.logger then Run(ReadinessStep(app), Panicked)
    else
      var server := ShutdownServer(app);
      var rest := WaitBeforeShutdown(app) + ShutdownModules(app) + server.events;
      assert rest[0] == Info(BeforeMessage, GetBeforeTimeout(app.timeouts));
      Run(ReadinessStep(app) + rest, Returned(server.err))
  }

  /** The views of a whole run with a logger, step by step. */
  lemma RunDecomposition(app: App)
    requires app.logger
    ensures ViewsOf(Shutdown(app).trace)
            == ViewsOf(ReadinessStep(app)).Plus(
                 ViewsOf(WaitBeforeShutdown(app)).Plus(ViewsOf(ShutdownModules(app)))
                 .Plus(ViewsOf(ShutdownServer(app).events)))
  {
    var a, b, c, d := ReadinessStep(app), WaitBeforeShutdown(app), ShutdownModules(app), ShutdownServer(app).events;
    assert Shutdown(app).trace == a + (b + c + d);
    ViewsConcat(b, c);
    ViewsConcat(b + c, d);
    ViewsConcat(a, b + c + d);
  }

  // ---------------------------------------------------------------------
  // Properties of whole runs

  /** The readiness checker is called at most once, and never after
      anything else. */
  lemma ReadinessOnlyFirst(app: App)
    ensures forall i | 0 < i < |Shutdown(app).trace| :: Shutdown(app).trace[i] != ReadinessShutdown
  {
    var t := Shutdown(app).trace;
    var a := ReadinessStep(app);
    if app.logger {
      var rest := WaitBeforeShutdown(app) + ShutdownModules(app) + ShutdownServer(app).events;
      assert t == a + rest;
      NoReadinessAfterFirst(app);
      NotAfterHead(a, rest, ReadinessShutdown);
    } else {
      assert t == a;
    }
  }

  /** Behind a head of at most one step, a step missing from the rest never
      occurs again. */
  lemma NotAfterHead(a: seq<Event>, rest: seq<Event>, x: Event)
    requires |a| <= 1 && x !in rest
    ensures forall i | 0 < i < |a + rest| :: (a + rest)[i] != x
  {
    forall i | 0 < i < |a + rest|
      ensures (a + rest)[i] != x
    {
      assert (a + rest)[i] == rest[i - |a|];
    }
  }

  /** After the readiness step no step is the readiness checker's. */
  lemma NoReadinessAfterFirst(app: App)
    ensures ReadinessShutdown !in WaitBeforeShutdown(app) + ShutdownModules(app) + ShutdownServer(app).events
  {
    var b, c, d := WaitBeforeShutdown(app), ShutdownModules(app), ShutdownServer(app).events;
    assert b == [Info(BeforeMessage, GetBeforeTimeout(app.timeouts)), Sleep(GetBeforeTimeout(app.timeouts))];
    ModulePhaseSteps(app);
    ServerPhaseSteps(app);
    assert ReadinessShutdown !in b && ReadinessShutdown !in c && ReadinessShutdown !in d;
  }

  lemma ModulePhaseSteps(app: App)
    ensures forall e | e in ShutdownModules(app) :: e.Info? || e.Invoke? || e.LogError?
  {
    PhaseSteps(ModulesMessage, GetModuleTimeout(app.timeouts), ModuleJobs(app.modules), app.modulesSelect,
               ModulesFailedMessage);
  }

  lemma ServerPhaseSteps(app: App)
    ensures forall e | e in ShutdownServer(app).events :: e.Info? || e.Invoke? || e.LogError?
  {
    PhaseSteps(ServerMessage, GetServerTimeout(app.timeouts), [Job(Server, app.server)], app.serverSelect,
               ServerFailedMessage);
  }

  /** A phase consists of its announcement, task calls and error logs. */
  lemma PhaseSteps(message: string, timeout: Duration, jobs: seq<Job>, select: Select, failed: string)
    ensures forall e | e in AnnouncedPhase(message, timeout, jobs, select, failed).events ::
              e.Info? || e.Invoke? || e.LogError?
  {
    TurnOffSteps(WithTimeout(Background, timeout), jobs);
  }

  /** A phase opens with its announcement, continues with task calls and
      error logs only, and, when it timed out, ends with the wrapped
      timeout, after every call and every task error. */
  lemma PhaseShape(message: string, timeout: Duration, jobs: seq<Job>, select: Select, failed: string)
    ensures var ev := AnnouncedPhase(message, timeout, jobs, select, failed).events;
            && |ev| > 0 && ev[0] == Info(message, timeout)
            && (forall i | 0 < i < |ev| :: ev[i].Invoke? || ev[i].LogError?)
            && (TimesOut(jobs, select) ==> ev[|ev| - 1] == LogError(Wrapped(failed, TimedOut)))
  {
    var ev := AnnouncedPhase(message, timeout, jobs, select, failed).events;
    var fan := TurnOffModules(WithTimeout(Background, timeout), jobs).events;
    TurnOffSteps(WithTimeout(Background, timeout), jobs);
    var body := [Info(message, timeout)] + fan;
    if TimesOut(jobs, select) {
      assert ev == body + [LogError(Wrapped(failed, TimedOut))];
    } else {
      assert ev == body;
    }
    assert forall i | 0 < i < |body| :: body[i] == fan[i - 1] && fan[i - 1] in fan;
  }

  /** The fan-out consists of task calls and error logs. */
  lemma {:induction false} TurnOffSteps(ctx: Context, jobs: seq<Job>)
    ensures forall e | e in TurnOffModules(ctx, jobs).events :: e.Invoke? || e.LogError?
    decreases |jobs|
  {
    if jobs != [] {
      TurnOffSteps(ctx, jobs[1..]);
      assert TurnOffModules(ctx, jobs).events == TurnOffOne(ctx, jobs[0]) + TurnOffModules(ctx, jobs[1..]).events;
    }
  }

  /** The phase order: readiness (when present), the delay message and the
      pre-shutdown sleep, the module announcement and every module called
      once in the module phase's context, then the server announcement and
      the server called once in the server phase's context, also when the
      module phase timed out. Each message and context carries the
      matching defaulted timeout. */
  lemma PhaseOrder(app: App)
    requires app.logger
    ensures Milestones(Shutdown(app).trace)
            == ReadinessStep(app)
               + ([Info(BeforeMessage, GetBeforeTimeout(app.timeouts)), Sleep(GetBeforeTimeout(app.timeouts))]
                  + ([Info(ModulesMessage, GetModuleTimeout(app.timeouts))]
                     + Invocations(ModuleJobs(app.modules), WithTimeout(Background, GetModuleTimeout(app.timeouts))))
                  + [Info(ServerMessage, GetServerTimeout(app.timeouts)),
                     Invoke(Server, WithTimeout(Background, GetServerTimeout(app.timeouts)))])
  {
    RunDecomposition(app);
  }

  /** The server phase begins with its announcement, which occurs once:
      every error of the module phase, its wrapped timeout included, is
      logged before it, and only the server's call and the server phase's
      errors come after it. */
  lemma ModuleErrorsBeforeServerPhase(app: App)
    requires app.logger
    ensures var t := Shutdown(app).trace;
            var x := Info(ServerMessage, GetServerTimeout(app.timeouts));
            && x in t
            && forall k | 0 <= k < |t| && t[k] == x ::
                 && LoggedErrors(t[..k])
                    == Failures(ModuleJobs(app.modules))
                       + (if TimesOut(ModuleJobs(app.modules), app.modulesSelect)
                          then [Wrapped(ModulesFailedMessage, TimedOut)] else [])
                 && LoggedErrors(t[k..])
                    == JobFailure(Job(Server, app.server))
                       + (if ServerTimesOut(app) then [Wrapped(ServerFailedMessage, TimedOut)] else [])
                 && Milestones(t[k..])
                    == [x, Invoke(Server, WithTimeout(Background, GetServerTimeout(app.timeouts)))]
  {
    var t := Shutdown(app).trace;
    var x := Info(ServerMessage, GetServerTimeout(app.timeouts));
    var u := ReadinessStep(app) + WaitBeforeShutdown(app) + ShutdownModules(app);
    var d := ShutdownServer(app).events;
    RunAtServerPhase(app);
    ServerPhaseMarker(app);
    ErrorsBeforeServerPhase(app);
    ViewsAtMarker(u, d, x);
  }

  /** Splitting a trace at a marker step that opens its second part. */
  lemma ViewsAtMarker(u: seq<Event>, d: seq<Event>, x: Event)
    requires x !in u && |d| > 0 && d[0] == x
    requires forall i | 0 < i < |d| :: d[i] != x
    ensures x in u + d
    ensures forall k | 0 <= k < |u + d| && (u + d)[k] == x ::
              && LoggedErrors((u + d)[..k]) == LoggedErrors(u)
              && LoggedErrors((u + d)[k..]) == LoggedErrors(d)
              && Milestones((u + d)[k..]) == Milestones(d)
  {
    assert (u + d)[|u|] == x;
    forall k | 0 <= k < |u + d| && (u + d)[k] == x
      ensures (u + d)[..k] == u && (u + d)[k..] == d
    {
      MarkerSplit(u, d, x, k);
    }
  }

  /** A run with a logger: everything up to the module phase, then the
      server phase. */
  lemma RunAtServerPhase(app: App)
    requires app.logger
    ensures Shutdown(app).trace
            == ReadinessStep(app) + WaitBeforeShutdown(app) + ShutdownModules(app) + ShutdownServer(app).events
  {
    var a, b, c, d := ReadinessStep(app), WaitBeforeShutdown(app), ShutdownModules(app), ShutdownServer(app).events;
    assert Shutdown(app).trace == a + (b + c + d);
    Regroup(a, b, c, d);
  }

  lemma Regroup(a: seq<Event>, b: seq<Event>, c: seq<Event>, d: seq<Event>)
    ensures a + (b + c + d) == a + b + c + d
  {
  }

  /** The server announcement opens the server phase, occurs nowhere else
      in it, and nowhere before it. */
  lemma ServerPhaseMarker(app: App)
    ensures var u := ReadinessStep(app) + WaitBeforeShutdown(app) + ShutdownModules(app);
            var d := ShutdownServer(app).events;
            var x := Info(ServerMessage, GetServerTimeout(app.timeouts));
            && x !in u && |d| > 0 && d[0] == x && forall i | 0 < i < |d| :: d[i] != x
  {
    var b := WaitBeforeShutdown(app);
    assert b == [Info(BeforeMessage, GetBeforeTimeout(app.timeouts)), Sleep(GetBeforeTimeout(app.timeouts))];
    NoServerAnnouncementInModulePhase(app);
    PhaseShape(ServerMessage, GetServerTimeout(app.timeouts), [Job(Server, app.server)], app.serverSelect,
               ServerFailedMessage);
  }

  /** The module phase never makes the server announcement. */
  lemma NoServerAnnouncementInModulePhase(app: App)
    ensures Info(ServerMessage, GetServerTimeout(app.timeouts)) !in ShutdownModules(app)
  {
    var x := Info(ServerMessage, GetServerTimeout(app.timeouts));
    var c := ShutdownModules(app);
    PhaseShape(ModulesMessage, GetModuleTimeout(app.timeouts), ModuleJobs(app.modules), app.modulesSelect,
               ModulesFailedMessage);
    assert |ModulesMessage| != |ServerMessage|;
    assert forall i | 0 <= i < |c| :: c[i] != x;
  }

  /** The errors logged before the server phase: those of the module phase. */
  lemma ErrorsBeforeServerPhase(app: App)
    ensures LoggedErrors(ReadinessStep(app) + WaitBeforeShutdown(app) + ShutdownModules(app))
            == Failures(ModuleJobs(app.modules))
               + (if TimesOut(ModuleJobs(app.modules), app.modulesSelect)
                  then [Wrapped(ModulesFailedMessage, TimedOut)] else [])
  {
    var a, b, c := ReadinessStep(app), WaitBeforeShutdown(app), ShutdownModules(app);
    ViewsConcat(a, b);
    ViewsConcat(a + b, c);
    assert LoggedErrors(a + b + c) == [] + [] + LoggedErrors(c);
  }

  /** Exactly three informational messages, one per step, each naming the
      defaulted duration that step uses. */
  lemma InfoMessages(app: App)
    requires app.logger
    ensures Infos(Shutdown(app).trace)
            == [Info(BeforeMessage, GetBeforeTimeout(app.timeouts)),
                Info(ModulesMessage, GetModuleTimeout(app.timeouts)),
                Info(ServerMessage, GetServerTimeout(app.timeouts))]
  {
    RunDecomposition(app);
  }

  /** What reaches `Logger.Error`, in order: each module's own error, the
      module phase's timeout wrapped as "modules shutdown failed", the
      server's own error, the server phase's timeout wrapped as "server
      shutdown failed". */
  lemma LoggedErrorsOfRun(app: App)
    requires app.logger
    ensures LoggedErrors(Shutdown(app).trace)
            == Failures(ModuleJobs(app.modules))
               + (if TimesOut(ModuleJobs(app.modules), app.modulesSelect)
                  then [Wrapped(ModulesFailedMessage, TimedOut)] else [])
               + JobFailure(Job(Server, app.server))
               + (if ServerTimesOut(app) then [Wrapped(ServerFailedMessage, TimedOut)] else [])
  {
    var jobs := ModuleJobs(app.modules);
    var x := Failures(jobs);
    var y := if TimesOut(jobs, app.modulesSelect) then [Wrapped(ModulesFailedMessage, TimedOut)] else [];
    var z := JobFailure(Job(Server, app.server));
    var w := if ServerTimesOut(app) then [Wrapped(ServerFailedMessage, TimedOut)] else [];
    RunDecomposition(app);
    assert ViewsOf(ReadinessStep(app)).errors == [];
    assert ViewsOf(WaitBeforeShutdown(app)).errors == [];
    assert ViewsOf(ShutdownModules(app)).errors == x + y;
    assert ViewsOf(ShutdownServer(app).events).errors == z + w;
    assert LoggedErrors(Shutdown(app).trace) == [] + ([] + (x + y) + (z + w));
    ErrorsAssociate(x, y, z, w);
  }

  /** Regrouping the four pieces, kept apart so that the step is proved
      without the whole run in view. */
  lemma ErrorsAssociate(x: seq<Error>, y: seq<Error>, z: seq<Error>, w: seq<Error>)
    ensures [] + ([] + (x + y) + (z + w)) == x + y + z + w
  {
  }

  /** Every module or server error is logged, and nothing but module and
      server errors and the two wrapped timeouts is. */
  lemma EveryTaskErrorLogged(app: App, e: Error)
    requires app.logger
    ensures e in LoggedErrors(Shutdown(app).trace) <==>
              || (exists k | 0 <= k < |app.modules| :: app.modules[k] == Finished(Some(e)))
              || app.server == Finished(Some(e))
              || (e == Wrapped(ModulesFailedMessage, TimedOut)
                  && ((exists k | 0 <= k < |app.modules| :: app.modules[k] == Overran)
                      || app.modulesSelect == DeadlineFirst))
              || (e == Wrapped(ServerFailedMessage, TimedOut)
                  && (app.server == Overran || app.serverSelect == DeadlineFirst))
  {
    LoggedErrorsOfRun(app);
    assert LoggedErrors(Shutdown(app).trace) == ExpectedLog(app);
    ErrorOfPieces(app, e);
  }

  /** Membership in the four pieces of the error log. */
  lemma ErrorOfPieces(app: App, e: Error)
    ensures e in ExpectedLog(app)
            <==>
              || (exists k | 0 <= k < |app.modules| :: app.modules[k] == Finished(Some(e)))
              || app.server == Finished(Some(e))
              || (e == Wrapped(ModulesFailedMessage, TimedOut)
                  && ((exists k | 0 <= k < |app.modules| :: app.modules[k] == Overran)
                      || app.modulesSelect == DeadlineFirst))
              || (e == Wrapped(ServerFailedMessage, TimedOut)
                  && (app.server == Overran || app.serverSelect == DeadlineFirst))
  {
    var modules, server := app.modules, app.server;
    var jobs := ModuleJobs(modules);
    var moduleErrors := Failures(jobs);
    var moduleTimeout := if TimesOut(jobs, app.modulesSelect) then [Wrapped(ModulesFailedMessage, TimedOut)] else [];
    var serverError := JobFailure(Job(Server, server));
    var serverTimeout := if ServerTimesOut(app) then [Wrapped(ServerFailedMessage, TimedOut)] else [];
    var all := moduleErrors + moduleTimeout + serverError + serverTimeout;
    assert e in all <==> e in moduleErrors || e in moduleTimeout || e in serverError || e in serverTimeout;
    OverranModules(modules);
    ModuleFailuresMembership(modules, e);
    assert e in serverError <==> server == Finished(Some(e));
  }

  /** A module error is among the module phase's failures exactly when
      some module finished with it. */
  lemma ModuleFailuresMembership(modules: seq<Outcome>, e: Error)
    ensures e in Failures(ModuleJobs(modules)) <==>
              exists k | 0 <= k < |modules| :: modules[k] == Finished(Some(e))
  {
    var jobs := ModuleJobs(modules);
    FailuresMembership(jobs, e);
    if exists k | 0 <= k < |modules| :: modules[k] == Finished(Some(e)) {
      var k :| 0 <= k < |modules| && modules[k] == Finished(Some(e));
      assert jobs[k].outcome == Finished(Some(e));
    }
  }

  // ---------------------------------------------------------------------
  // The outcomes the package's tests pin down, for any number of modules

  /** No module finishes with an error of its own (each one succeeds or
      overruns). */
  predicate NoModuleErrors(modules: seq<Outcome>)
  {
    forall k | 0 <= k < |modules| :: modules[k] == Finished(None) || modules[k] == Overran
  }

  lemma NoModuleFailures(modules: seq<Outcome>)
    requires NoModuleErrors(modules)
    ensures Failures(ModuleJobs(modules)) == []
    ensures AnyOverran(ModuleJobs(modules)) <==> exists k | 0 <= k < |modules| :: modules[k] == Overran
  {
    var jobs := ModuleJobs(modules);
    if Failures(jobs) != [] {
      FailuresMembership(jobs, Failures(jobs)[0]);
      assert false;
    }
    OverranModules(modules);
  }

  /** The expected error log, piece by piece: module errors, the module
      phase's wrapped timeout, the server's error, the server phase's
      wrapped timeout. */
  function ExpectedLog(app: App): seq<Error>
  {
    Failures(ModuleJobs(app.modules))
    + (if TimesOut(ModuleJobs(app.modules), app.modulesSelect) then [Wrapped(ModulesFailedMessage, TimedOut)] else [])
    + JobFailure(Job(Server, app.server))
    + (if ServerTimesOut(app) then [Wrapped(ServerFailedMessage, TimedOut)] else [])
  }

  /** Without module errors, the log holds at most the module phase's
      timeout, then the server's part. */
  lemma ScenarioLog(app: App)
    requires NoModuleErrors(app.modules)
    ensures ExpectedLog(app)
            == (if (exists k | 0 <= k < |app.modules| :: app.modules[k] == Overran)
                   || app.modulesSelect == DeadlineFirst
                then [Wrapped(ModulesFailedMessage, TimedOut)] else [])
               + JobFailure(Job(Server, app.server))
               + (if ServerTimesOut(app) then [Wrapped(ServerFailedMessage, TimedOut)] else [])
  {
    NoModuleFailures(app.modules);
    var y := if TimesOut(ModuleJobs(app.modules), app.modulesSelect)
             then [Wrapped(ModulesFailedMessage, TimedOut)] else [];
    assert [] + y == y;
  }

  /** All modules and the server succeed well before their deadlines:
      nothing is logged as an error and nil is returned. */
  lemma AllSucceedLogsNothing(app: App)
    requires app.logger
    requires forall k | 0 <= k < |app.modules| :: app.modules[k] == Finished(None)
    requires app.server == Finished(None)
    requires app.modulesSelect == DoneFirst && app.serverSelect == DoneFirst
    ensures LoggedErrors(Shutdown(app).trace) == []
    ensures Shutdown(app).exit == Returned(None)
  {
    LoggedErrorsOfRun(app);
    assert LoggedErrors(Shutdown(app).trace) == ExpectedLog(app);
    QuietLog(app);
  }

  lemma QuietLog(app: App)
    requires forall k | 0 <= k < |app.modules| :: app.modules[k] == Finished(None)
    requires app.server == Finished(None)
    requires app.modulesSelect == DoneFirst && app.serverSelect == DoneFirst
    ensures ExpectedLog(app) == []
  {
    ScenarioLog(app);
  }

  /** The server finishes with an error of its own, and every task well
      before its deadline: that error is logged as it is, and `Shutdown`
      still returns nil. */
  lemma ServerErrorIsLoggedNotReturned(app: App, e: Error)
    requires app.logger
    requires forall k | 0 <= k < |app.modules| :: app.modules[k] == Finished(None)
    requires app.server == Finished(Some(e))
    requires app.modulesSelect == DoneFirst && app.serverSelect == DoneFirst
    ensures LoggedErrors(Shutdown(app).trace) == [e]
    ensures Shutdown(app).exit == Returned(None)
  {
    LoggedErrorsOfRun(app);
    assert LoggedErrors(Shutdown(app).trace) == ExpectedLog(app);
    ServerErrorLog(app, e);
  }

  lemma ServerErrorLog(app: App, e: Error)
    requires forall k | 0 <= k < |app.modules| :: app.modules[k] == Finished(None)
    requires app.server == Finished(Some(e))
    requires app.modulesSelect == DoneFirst && app.serverSelect == DoneFirst
    ensures ExpectedLog(app) == [e]
  {
    ScenarioLog(app);
    assert [] + [e] + [] == [e];
  }

  /** Some module overruns and the server succeeds well before its
      deadline: one error is logged, the wrapped `ErrTimedOut` of the module
      phase, and the server phase still runs and nil is returned. */
  lemma ModuleTimeoutIsLoggedNotReturned(app: App)
    requires app.logger
    requires NoModuleErrors(app.modules)
    requires exists k | 0 <= k < |app.modules| :: app.modules[k] == Overran
    requires app.server == Finished(None) && app.serverSelect == DoneFirst
    ensures LoggedErrors(Shutdown(app).trace) == [Wrapped(ModulesFailedMessage, TimedOut)]
    ensures Is(LoggedErrors(Shutdown(app).trace)[0], TimedOut)
    ensures Invoke(Server, WithTimeout(Background, GetServerTimeout(app.timeouts))) in Shutdown(app).trace
    ensures Shutdown(app).exit == Returned(None)
  {
    LoggedErrorsOfRun(app);
    assert LoggedErrors(Shutdown(app).trace) == ExpectedLog(app);
    ModuleTimeoutLog(app);
    ServerIsCalled(app);
  }

  lemma ModuleTimeoutLog(app: App)
    requires NoModuleErrors(app.modules)
    requires exists k | 0 <= k < |app.modules| :: app.modules[k] == Overran
    requires app.server == Finished(None) && app.serverSelect == DoneFirst
    ensures ExpectedLog(app) == [Wrapped(ModulesFailedMessage, TimedOut)]
    ensures Is(Wrapped(ModulesFailedMessage, TimedOut), TimedOut)
  {
    var w1 := Wrapped(ModulesFailedMessage, TimedOut);
    ScenarioLog(app);
    assert [w1] + [] + [] == [w1];
  }

  /** With a logger, the server is always called with its phase context. */
  lemma ServerIsCalled(app: App)
    requires app.logger
    ensures Invoke(Server, WithTimeout(Background, GetServerTimeout(app.timeouts))) in Shutdown(app).trace
  {
    PhaseOrder(app);
    var milestones := Milestones(Shutdown(app).trace);
    assert milestones[|milestones| - 1] == Invoke(Server, WithTimeout(Background, GetServerTimeout(app.timeouts)));
    MilestonesInTrace(Shutdown(app).trace, milestones[|milestones| - 1]);
  }

  /** Modules and server both overrun: exactly two errors are logged, both
      `ErrTimedOut` underneath, the module phase's first, and `Shutdown`
      returns `ErrTimedOut`. */
  lemma BothPhasesTimeOut(app: App)
    requires app.logger
    requires NoModuleErrors(app.modules)
    requires exists k | 0 <= k < |app.modules| :: app.modules[k] == Overran
    requires app.server == Overran
    ensures LoggedErrors(Shutdown(app).trace)
            == [Wrapped(ModulesFailedMessage, TimedOut), Wrapped(ServerFailedMessage, TimedOut)]
    ensures forall e | e in LoggedErrors(Shutdown(app).trace) :: Is(e, TimedOut)
    ensures Shutdown(app).exit == Returned(Some(TimedOut))
  {
    LoggedErrorsOfRun(app);
    assert LoggedErrors(Shutdown(app).trace) == ExpectedLog(app);
    BothTimeoutsLog(app);
  }

  lemma BothTimeoutsLog(app: App)
    requires NoModuleErrors(app.modules)
    requires exists k | 0 <= k < |app.modules| :: app.modules[k] == Overran
    requires app.server == Overran
    ensures ExpectedLog(app)
            == [Wrapped(ModulesFailedMessage, TimedOut), Wrapped(ServerFailedMessage, TimedOut)]
    ensures forall e | e in ExpectedLog(app) :: Is(e, TimedOut)
  {
    var w1, w2 := Wrapped(ModulesFailedMessage, TimedOut), Wrapped(ServerFailedMessage, TimedOut);
    ScenarioLog(app);
    assert [w1] + [] + [w2] == [w1, w2];
    assert Is(w1, TimedOut) && Is(w2, TimedOut);
  }

  /** A phase without tasks still races its deadline: with no modules and a
      deadline that wins the `select` (say a negative module timeout, which
      the getter passes through), "modules shutdown failed" is logged. */
  lemma EmptyModulePhaseCanTimeOut(app: App)
    requires app.logger
    requires app.modules == [] && app.modulesSelect == DeadlineFirst
    requires app.server == Finished(None) && app.serverSelect == DoneFirst
    ensures LoggedErrors(Shutdown(app).trace) == [Wrapped(ModulesFailedMessage, TimedOut)]
    ensures Shutdown(app).exit == Returned(None)
  {
    LoggedErrorsOfRun(app);
    assert LoggedErrors(Shutdown(app).trace) == ExpectedLog(app);
    EmptyPhaseLog(app);
  }

  lemma EmptyPhaseLog(app: App)
    requires app.modules == [] && app.modulesSelect == DeadlineFirst
    requires app.server == Finished(None) && app.serverSelect == DoneFirst
    ensures ExpectedLog(app) == [Wrapped(ModulesFailedMessage, TimedOut)]
  {
    var w1 := Wrapped(ModulesFailedMessage, TimedOut);
    ScenarioLog(app);
    assert [w1] + [] + [] == [w1];
  }
}

=== FILE: shutdown_app.dfy ===
/** `ShutdownApp(cfg)`: the named-module variant as a closure over the
    configuration. The closure takes its context from the caller, imposes
    no deadline of its own, never reads `ShutdownTimeout`, and returns
    nothing. */
module ShutdownAppClosure {
  import opened GoTypes
  import opened NamedModules
  import GracefulApp

  /** One call of the closure built by `ShutdownApp(cfg)`, given the
      caller's context and a map iteration order. The closure has no result,
      so a returning call carries no error; it panics only on a server
      failure with a nil error handler. */
  function ShutdownApp(cfg: Config, order: seq<string>, ctx: Context): (r: Run)
    requires IsSchedule(order, cfg.modules)
    ensures r.exit.Returned? ==> r.exit.err == None
    ensures r.exit == Blocked <==>
              |cfg.modules| > 0 && (AnyBlocks(cfg.modules) || cfg.server == Some(Blocks))
    ensures r.exit == Panicked <==>
              && |cfg.modules| > 0 && !AnyBlocks(cfg.modules) && !cfg.errorHandler
              && cfg.server.Some? && cfg.server.value.Returns? && cfg.server.value.err.Some?
  {
    ShutdownWith(cfg, order, ctx)
  }

  /** The readiness checker is called exactly when it is non-nil, once and
      first; the announcement is made once exactly when the information
      handler is non-nil; the sleep happens exactly once, and no module or
      server is called before it. */
  lemma ReadinessAndAnnouncement(cfg: Config, order: seq<string>, ctx: Context)
    requires IsSchedule(order, cfg.modules)
    ensures var t := ShutdownApp(cfg, order, ctx).trace;
            (|t| > 0 && t[0] == ReadinessShutdown) <==> cfg.readinessChecker
    ensures Info(BeforeMessage, cfg.beforeShutdownTimeout) in ShutdownApp(cfg, order, ctx).trace
            <==> cfg.informationHandler
    ensures Sleep(cfg.beforeShutdownTimeout) in ShutdownApp(cfg, order, ctx).trace
    ensures ReadinessShutdown in ShutdownApp(cfg, order, ctx).trace <==> cfg.readinessChecker
    ensures var t := ShutdownApp(cfg, order, ctx).trace;
            forall i | 0 < i < |t| :: t[i] != ReadinessShutdown
    ensures var m := multiset(ShutdownApp(cfg, order, ctx).trace);
            && m[ReadinessShutdown] == (if cfg.readinessChecker then 1 else 0)
            && m[Info(BeforeMessage, cfg.beforeShutdownTimeout)] == (if cfg.informationHandler then 1 else 0)
            && m[Sleep(cfg.beforeShutdownTimeout)] == 1
    ensures var t := ShutdownApp(cfg, order, ctx).trace;
            forall i, j | 0 <= i < |t| && 0 <= j < |t| && t[i].Sleep? && (t[j].ModuleCall? || t[j].ServerCall?) ::
              i < j
  {
    AnnouncementOnlyWithHandler(cfg, order, ctx);
    PreludeBeforeCalls(cfg, order, ctx);
    ReadinessOnce(cfg, order, ctx);
  }

  /** With no modules the closure shuts down neither modules nor server. */
  lemma EmptyMapShutsNothingDown(cfg: Config, order: seq<string>, ctx: Context)
    requires IsSchedule(order, cfg.modules)
    requires |cfg.modules| == 0
    ensures forall e | e in ShutdownApp(cfg, order, ctx).trace :: !e.ModuleCall? && !e.ServerCall?
    ensures ShutdownApp(cfg, order, ctx).exit == Returned(None)
  {
    NoModulesNothingShutDown(cfg, order, ctx);
  }

  /** Every module is called once, and every module call and the server
      call receive the caller's context unchanged. */
  lemma CallerContextReachesEveryCall(cfg: Config, order: seq<string>, ctx: Context)
    requires IsSchedule(order, cfg.modules)
    ensures multiset(CalledModules(ShutdownApp(cfg, order, ctx).trace)) == multiset(cfg.modules.Keys)
    ensures forall e | e in ShutdownApp(cfg, order, ctx).trace && (e.ModuleCall? || e.ServerCall?) ::
              e.ctx == ctx
  {
    ModulesCalledOnce(cfg, order, ctx);
    CallsCarryContext(cfg, order, ctx);
  }

  /** Module failures are reported, tagged with the module's name, exactly
      when the error handler is non-nil; the server's failure is reported
      after every module has returned. */
  lemma ErrorsReported(cfg: Config, order: seq<string>, ctx: Context, err: Error)
    requires IsSchedule(order, cfg.modules)
    ensures err in Reported(ShutdownApp(cfg, order, ctx).trace) <==>
              || (cfg.errorHandler && exists name | name in cfg.modules :: FailedWith(cfg.modules, name, err))
              || err in ServerReport(cfg)
    ensures |Reported(ShutdownApp(cfg, order, ctx).trace)|
            == (if cfg.errorHandler then |set name | name in cfg.modules && Failing(cfg.modules, name)| else 0)
               + |ServerReport(cfg)|
  {
    ReportsOfRun(cfg, order, ctx, err);
    ReportCountOfRun(cfg, order, ctx);
  }

  /** The server is called after every module call, and exactly when there
      is a module, none blocks, and the server is non-nil. */
  lemma ServerAfterAllModules(cfg: Config, order: seq<string>, ctx: Context)
    requires IsSchedule(order, cfg.modules)
    ensures ServerLast(ShutdownApp(cfg, order, ctx).trace)
    ensures ServerCall(ctx) in ShutdownApp(cfg, order, ctx).trace
            <==> |cfg.modules| > 0 && !AnyBlocks(cfg.modules) && cfg.server.Some?
  {
    ServerAfterModules(cfg, order, ctx);
  }

  /** `wg.Wait()` precedes the server call, so every module's report comes
      before it and only the server's own report follows it. */
  lemma ReportsBeforeServerCall(cfg: Config, order: seq<string>, ctx: Context)
    requires IsSchedule(order, cfg.modules)
    ensures var t := ShutdownApp(cfg, order, ctx).trace;
            forall k | 0 <= k < |t| && t[k] == ServerCall(ctx) ::
              && Reported(t[k..]) == ServerReport(cfg)
              && forall err :: err in Reported(t[..k]) <==>
                   cfg.errorHandler && exists name | name in cfg.modules :: FailedWith(cfg.modules, name, err)
  {
    ModuleReportsBeforeServer(cfg, order, ctx);
  }

  /** `ShutdownTimeout` is never read: changing it changes nothing. */
  lemma ShutdownTimeoutNeverRead(cfg: Config, order: seq<string>, ctx: Context, d: Duration)
    requires IsSchedule(order, cfg.modules)
    ensures ShutdownApp(cfg.(shutdownTimeout := d), order, ctx) == ShutdownApp(cfg, order, ctx)
  {
  }

  /** The method variant is the closure called with the context the method
      derives: a deadline of `ShutdownTimeout` when positive. */
  lemma MethodIsClosureWithDeadline(c: Config, order: seq<string>)
    requires IsSchedule(order, c.modules)
    ensures GracefulApp.Shutdown(c, order) == ShutdownApp(c, order, GracefulApp.DeadlineContext(c))
  {
  }
}

=== FILE: state.dfy ===
/** The in-flight work counter `State`: request-handling code raises it when
    a unit of work starts and lowers it when the unit ends; shutdown waits
    for it to reach zero. The count is a Go `uint64`, so `Increment` wraps
    at 2^64 - 1 and is written out that way here. */
module InFlight {
  import opened GoTypes

  const MaxUint64: int := 0xFFFF_FFFF_FFFF_FFFF

  type Uint64 = n: int | 0 <= n <= MaxUint64

  /** `timeout` is the polling interval of `Shutdown`; `notProcessed` the
      number of outstanding units of work. */
  datatype State = State(timeout: Duration, notProcessed: Uint64)

  /** `iFinished`: no outstanding work. */
  predicate IsFinished(s: State)
  {
    s.notProcessed == 0
  }

  /** A fresh counter has no outstanding work. */
  function NewState(timeout: Duration): (s: State)
    ensures s.timeout == timeout
    ensures IsFinished(s)
  {
    State(timeout, 0)
  }

  /** Raises the count by one; the unsigned `++` wraps to zero at the top of
      the `uint64` range. The polling interval is left alone. */
  function Increment(s: State): (r: State)
    ensures r.timeout == s.timeout
    ensures s.notProcessed < MaxUint64 ==> r.notProcessed == s.notProcessed + 1
    ensures s.notProcessed == MaxUint64 ==> r.notProcessed == 0
    ensures !IsFinished(r) <==> s.notProcessed < MaxUint64
  {
    s.(notProcessed := (s.notProcessed + 1) % (MaxUint64 + 1))
  }

  /** Lowers the count by one when work is outstanding; at zero it is a
      no-op, so the count never goes below zero. */
  function Decrement(s: State): (r: State)
    ensures r.timeout == s.timeout
    ensures !IsFinished(s) ==> r.notProcessed == s.notProcessed - 1
    ensures IsFinished(s) ==> r == s
    ensures r.notProcessed <= s.notProcessed
  {
    if s.notProcessed > 0 then s.(notProcessed := s.notProcessed - 1) else s
  }

  /** `Decrement` undoes `Increment` whenever the increment did not wrap. */
  lemma IncrementThenDecrement(s: State)
    requires s.notProcessed < MaxUint64
    ensures Decrement(Increment(s)) == s
  {
  }

  /** At the top of the range the round trip fails: the increment wraps to
      zero and the decrement is then a no-op. */
  lemma IncrementWrapsAtMax(t: Duration)
    ensures Decrement(Increment(State(t, MaxUint64))) == State(t, 0)
  {
  }

  // ---------------------------------------------------------------------
  // Event sequences

  datatype Op = Inc | Dec

  function Step(s: State, op: Op): State
  {
    match op
    case Inc => Increment(s)
    case Dec => Decrement(s)
  }

  /** The counter after the operations, applied left to right. */
  function Apply(s: State, ops: seq<Op>): State
    decreases |ops|
  {
    if ops == [] then s else Apply(Step(s, ops[0]), ops[1..])
  }

  function Incs(ops: seq<Op>): nat
  {
    if ops == [] then 0 else (if ops[0] == Inc then 1 else 0) + Incs(ops[1..])
  }

  function Decs(ops: seq<Op>): nat
  {
    if ops == [] then 0 else (if ops[0] == Dec then 1 else 0) + Decs(ops[1..])
  }

  /** No prefix of `ops` decrements more than the starting count plus the
      prefix's increments. */
  ghost predicate NoUnderflow(start: nat, ops: seq<Op>)
  {
    forall k :: 0 <= k <= |ops| ==> Decs(ops[..k]) <= start + Incs(ops[..k])
  }

  lemma {:induction false} CountsOfPrefix(ops: seq<Op>, k: nat)
    requires 0 < |ops| && k < |ops|
    ensures Incs(ops[..k + 1]) == (if ops[0] == Inc then 1 else 0) + Incs(ops[1..][..k])
    ensures Decs(ops[..k + 1]) == (if ops[0] == Dec then 1 else 0) + Decs(ops[1..][..k])
  {
    assert ops[..k + 1][1..] == ops[1..][..k];
  }

  /** When no prefix underflows and the increments cannot wrap, the final
      count is the start plus the increments minus the decrements. */
  lemma {:induction false} BalancedRunCount(s: State, ops: seq<Op>)
    requires NoUnderflow(s.notProcessed, ops)
    requires s.notProcessed + Incs(ops) <= MaxUint64
    ensures Apply(s, ops).notProcessed == s.notProcessed + Incs(ops) - Decs(ops)
    ensures Apply(s, ops).timeout == s.timeout
    decreases |ops|
  {
    if ops != [] {
      var s' := Step(s, ops[0]);
      var rest := ops[1..];
      assert ops[..1] == [ops[0]];
      assert Decs(ops[..1]) <= s.notProcessed + Incs(ops[..1]);
      forall k | 0 <= k <= |rest|
        ensures Decs(rest[..k]) <= s'.notProcessed + Incs(rest[..k])
      {
        CountsOfPrefix(ops, k);
        assert Decs(ops[..k + 1]) <= s.notProcessed + Incs(ops[..k + 1]);
      }
      BalancedRunCount(s', rest);
    }
  }

  /** Starting from `NewState`, a run in which no prefix has more
      decrements than increments ends with count `#Inc - #Dec`, and is
      finished exactly when the two balance. */
  lemma NewStateRunCount(t: Duration, ops: seq<Op>)
    requires NoUnderflow(0, ops)
    requires Incs(ops) <= MaxUint64
    ensures Apply(NewState(t), ops).notProcessed == Incs(ops) - Decs(ops)
    ensures IsFinished(Apply(NewState(t), ops)) <==> Incs(ops) == Decs(ops)
  {
    BalancedRunCount(NewState(t), ops);
  }

  /** Without the prefix condition the count is still bounded: it is never
      above start + #Inc, and never below start + #Inc - #Dec (decrements at
      zero are lost, never negative). */
  lemma {:induction false} RunCountBounds(s: State, ops: seq<Op>)
    requires s.notProcessed + Incs(ops) <= MaxUint64
    ensures Apply(s, ops).notProcessed <= s.notProcessed + Incs(ops)
    ensures Apply(s, ops).notProcessed >= s.notProcessed + Incs(ops) - Decs(ops)
    decreases |ops|
  {
    if ops != [] {
      RunCountBounds(Step(s, ops[0]), ops[1..]);
    }
  }

  // ---------------------------------------------------------------------
  // Shutdown: waiting for the counter to drain

  /** What one iteration of the polling loop observes: whether the
      context's `Done` channel was ready (and then `ctx.Err()`), and the
      count `iFinished` reads. */
  datatype Poll = Poll(ctxErr: Option<Error>, count: Uint64)

  /** Where `Shutdown` stands after a number of polling iterations: still
      polling, or returned `(count, err)`. */
  datatype Wait = Polling | Returned(count: Uint64, err: Option<Error>)

  const ContextDoneMessage := "shutdown context timeout done"

  /** One iteration of the loop as written, returning the recorded error
      and whether the `for` loop is left. A ready `Done` channel records the
      wrapped context error; a finished counter is noticed, but its `break`
      (like the one after the `Done` case) leaves only the `select`, which
      is why that branch keeps the separate shape of the source while
      doing what the last branch does. */
  function PollOnceAsWritten(err: Option<Error>, p: Poll): (r: (Option<Error>, bool))
    ensures p.ctxErr.Some? ==> r.0 == Some(Wrapped(ContextDoneMessage, p.ctxErr.value))
    ensures p.ctxErr.None? ==> r.0 == err
    ensures !r.1
  {
    if p.ctxErr.Some? then (Some(Wrapped(ContextDoneMessage, p.ctxErr.value)), false)
    else if p.count == 0 then (err, false)
    else (err, false)
  }

  /** The loop as written, over the iterations it observes. It never
      returns, whatever it observes: neither an expired context nor a
      drained counter ends it. */
  function PollAsWritten(err: Option<Error>, polls: seq<Poll>): (r: Wait)
    ensures r == Polling
    decreases |polls|
  {
    if polls == [] then Polling
    else
      var p := polls[0];
      var (err', exitLoop) := PollOnceAsWritten(err, p);
      if exitLoop then Returned(p.count, err') else PollAsWritten(err', polls[1..])
  }

  /** `Shutdown` as written: a finished counter returns `(0, nil)` at once;
      otherwise the polling loop runs and never returns. */
  function ShutdownAsWritten(s: State, polls: seq<Poll>): (r: Wait)
    ensures IsFinished(s) ==> r == Returned(0, None)
    ensures !IsFinished(s) ==> r == Polling
  {
    if IsFinished(s) then Returned(s.notProcessed, None) else PollAsWritten(None, polls)
  }

  /** A counter with one outstanding unit that drains before the first
      poll: the loop as written keeps polling, the intended loop returns
      `(0, nil)`. */
  lemma DrainedCounterKeepsPolling(t: Duration)
    ensures ShutdownAsWritten(State(t, 1), [Poll(None, 0)]) == Polling
    ensures Shutdown(State(t, 1), [Poll(None, 0)]) == Returned(0, None)
  {
  }

  /** An iteration at which the intended loop stops: the context has
      expired or the counter has drained. */
  predicate Stops(p: Poll)
  {
    p.ctxErr.Some? || p.count == 0
  }

  /** The polling loop as intended, with a labelled `break` that leaves the
      `for`: it returns at the first iteration that stops it. An expired
      context returns the count read then with the context error wrapped
      as "shutdown context timeout done"; a drained counter returns
      `(0, nil)`; otherwise the loop sleeps and polls again. */
  function PollIntended(polls: seq<Poll>): (r: Wait)
    ensures r.Returned? <==> exists i :: 0 <= i < |polls| && Stops(polls[i])
    ensures forall i | 0 <= i < |polls| && Stops(polls[i]) && (forall j | 0 <= j < i :: !Stops(polls[j])) ::
              r == (if polls[i].ctxErr.Some?
                    then Returned(polls[i].count, Some(Wrapped(ContextDoneMessage, polls[i].ctxErr.value)))
                    else Returned(0, None))
    ensures r.Returned? && r.err == None ==> r.count == 0
    decreases |polls|
  {
    if polls == [] then Polling
    else if polls[0].ctxErr.Some? then
      Returned(polls[0].count, Some(Wrapped(ContextDoneMessage, polls[0].ctxErr.value)))
    else if polls[0].count == 0 then Returned(0, None)
    else
      var r := PollIntended(polls[1..]);
      assert forall i :: 0 < i < |polls| ==> polls[i] == polls[1..][i - 1];
      r
  }

  /** `Shutdown` with the loop as intended: `(0, nil)` at once for a
      finished counter, without polling; otherwise the result of the first
      iteration that sees the context expire or the counter drained, and
      no result while none does. */
  function Shutdown(s: State, polls: seq<Poll>): (r: Wait)
    ensures IsFinished(s) ==> r == Returned(0, None)
    ensures !IsFinished(s) ==>
              (r.Returned? <==> exists i :: 0 <= i < |polls| && Stops(polls[i]))
    ensures !IsFinished(s) ==>
              forall i | 0 <= i < |polls| && Stops(polls[i]) && (forall j | 0 <= j < i :: !Stops(polls[j])) ::
                r == (if polls[i].ctxErr.Some?
                      then Returned(polls[i].count, Some(Wrapped(ContextDoneMessage, polls[i].ctxErr.value)))
                      else Returned(0, None))
    ensures r.Returned? && r.err == None ==> r.count == 0
  {
    if IsFinished(s) then Returned(0, None) else PollIntended(polls)
  }
}

=== FILE: timeouts.dfy ===
/** The `Timeouts` record of the main shutdown variant: three durations,
    each independently replaced by a built-in default when it is zero. */
module Timeouts {
  import opened GoTypes

  /** Pre-shutdown delay used when `Before` is zero (3s). */
  const DefaultBeforeTimeout: Duration := 3 * Second
  /** Module- and server-phase timeout used when the field is zero (15s). */
  const DefaultShutdownTimeout: Duration := 15 * Second

  datatype Timeouts = Timeouts(before: Duration, modules: Duration, server: Duration)

  /** The pre-shutdown delay: `Before` unless it is zero. Only zero selects
      the default, so a negative duration passes through unchanged. */
  function GetBeforeTimeout(t: Timeouts): (d: Duration)
    ensures t.before != 0 ==> d == t.before
    ensures t.before == 0 ==> d == 3 * Second
    ensures d != 0
  {
    if t.before != 0 then t.before else DefaultBeforeTimeout
  }

  /** The server-phase timeout: `Server` unless it is zero. */
  function GetServerTimeout(t: Timeouts): (d: Duration)
    ensures t.server != 0 ==> d == t.server
    ensures t.server == 0 ==> d == 15 * Second
    ensures d != 0
  {
    if t.server != 0 then t.server else DefaultShutdownTimeout
  }

  /** The module-phase timeout: `Modules` unless it is zero. */
  function GetModuleTimeout(t: Timeouts): (d: Duration)
    ensures t.modules != 0 ==> d == t.modules
    ensures t.modules == 0 ==> d == 15 * Second
    ensures d != 0
  {
    if t.modules != 0 then t.modules else DefaultShutdownTimeout
  }

  /** The record whose fields are the three effective durations. */
  function Resolved(t: Timeouts): Timeouts
  {
    Timeouts(GetBeforeTimeout(t), GetModuleTimeout(t), GetServerTimeout(t))
  }

  /** Each getter reads only its own field: two records that agree on a
      field agree on that field's getter, whatever the other fields hold. */
  lemma GettersAreIndependent(t: Timeouts, u: Timeouts)
    ensures t.before == u.before ==> GetBeforeTimeout(t) == GetBeforeTimeout(u)
    ensures t.modules == u.modules ==> GetModuleTimeout(t) == GetModuleTimeout(u)
    ensures t.server == u.server ==> GetServerTimeout(t) == GetServerTimeout(u)
  {
  }

  /** Defaulting is idempotent: resolving a resolved record changes nothing,
      and the resolved record has no zero field left. */
  lemma ResolvedIsIdempotent(t: Timeouts)
    ensures Resolved(Resolved(t)) == Resolved(t)
    ensures GetBeforeTimeout(Resolved(t)) == GetBeforeTimeout(t)
    ensures GetModuleTimeout(Resolved(t)) == GetModuleTimeout(t)
    ensures GetServerTimeout(Resolved(t)) == GetServerTimeout(t)
    ensures Resolved(t).before != 0 && Resolved(t).modules != 0 && Resolved(t).server != 0
  {
  }

  /** A record without zero fields is its own resolution: defaulting never
      rewrites a configured value, negative ones included. */
  lemma ResolvedKeepsNonZero(t: Timeouts)
    requires t.before != 0 && t.modules != 0 && t.server != 0
    ensures Resolved(t) == t
  {
  }
}
